=== FILE: README.md ===
# Media capture plugin (Android) — a Dafny model

This project models the Android side of a Cordova media-capture plugin: the
class `Capture` in `src/android/Capture.java`. The application calls
`execute` with `captureAudio`, `captureImage` or `getFormatData`.

- Each capture call becomes a pending request in a registry, keyed by a
  numeric request code.
- Before any external activity starts, the plugin checks the storage
  permissions, plus CAMERA when the host's manifest declares it. If some are
  missing, it asks for them.
- It then starts the sound recorder, the still camera, the video camera, or a
  chooser between the two cameras.
- The outcome comes back through `onRequestPermissionResult` and
  `onActivityResult` under the same request code.
- Audio clips accumulate until the request's limit is reached, restarting the
  recorder after each clip. An image or a video resolves the request at once.
- A cancelled or incomplete activity resolves with the items gathered so far,
  or fails with NoMediaFiles (code 3) when there are none.
- Two pieces of store housekeeping follow an activity result. The duplicate
  check deletes one image row when the image store grew by exactly two. The
  empty-video cleanup is meant to delete the empty placeholder a camera launch
  inserted; as written it deletes whatever file the plugin-wide video URI
  points at.

Two defects of the code are recorded under "## Findings": a camera that
cannot be started leaves the request pending forever, and the empty-video
cleanup can delete a video already delivered to an earlier request. Each is
modelled as written, and then corrected. The plugin state machine (`Plugin`)
and the scenarios run on the corrected steps. Every member built on them
states how its result relates to the code as written:

- `Requests.ExecuteRequest` has the same effect as `Requests.ExecuteRequestAsWritten`
  wherever the latter does something. Where the latter does nothing, it fails
  the request instead.
- `Plugin.ActivityResult` reports the same cleanup as
  `Plugin.CancelCleanupAsWritten`, except when the placeholder belongs to
  another request.

The model has one module per concern:

- `Wrappers` holds `Option` and `Result`.
- `JavaLang` gives the exact Java library behaviour the decisions depend on:
  `endsWith`, `contains`, `Boolean.parseBoolean`, 32-bit `int` wrap-around,
  and truncating `int` division.
- `Media` covers the MIME type recorded for a captured file and the dispatch
  of `getFormatData`.
- `Permissions` covers the permission lists, the missing subset, and the loop
  that collects it.
- `Requests` holds one pure step function per handler. Each takes a request
  and what the platform reported, and returns the updated request plus the one
  effect the plugin performs next: resolve, ask, launch, or nothing.
- `PendingRequests` is the registry plus a log of every result delivered to a
  caller.
- `Plugin` is the whole plugin as a state machine over three events: `execute`,
  a permission outcome, and an activity result. It carries the
  exactly-once-delivery invariant and the store cleanups.
- `Scenarios` drives concrete event sequences through the plugin.

The registry class itself (`PendingRequests`) is not part of this model. It
is represented by the behaviour the plugin relies on:

- a new request gets a code never used before;
- looking up an unknown code yields nothing;
- resolving a request delivers exactly one result and releases the code.

The platform's answers are inputs to the model. A `Device` value gives them
for one event: the permissions held, whether an activity answers an intent,
the image store's row count and last `_ID`, and the item the activity
produced. The probes of `getFormatData` arrive the same way, as a `Probe`
value.

Behaviours of the code a reader might not expect, which the model keeps:

- An image or video result resolves the request with that one item, whatever
  the limit. The multi-shot relaunch for video is commented out at
  `Capture.java:629-636`, and the image handler always resolves.
- An empty permission outcome counts as "nothing denied", so the capture step
  runs again.
- When an audio request's recorder restart fails, or its repeated permission
  prompt is denied, the request fails. The clips recorded so far are dropped,
  not delivered.
- Any result code other than OK or CANCELED is handled like a cancel. Only the
  message differs: "Did not complete!" instead of "Canceled.".

Platform constants not written in the source: RESULT_OK = -1,
RESULT_CANCELED = 0 and PERMISSION_DENIED = -1, the values Android defines.

## Model

| member | source | states |
|---|---|---|
| JavaLang.Wrap32 | src/android/Capture.java:740 | the result is in the `int` range and congruent to the input modulo 2^32, and equals the input when it already fits |
| JavaLang.JavaDiv | src/android/Capture.java:223 | Java division truncates toward zero: a non-negative numerator gives the floor quotient, a negative one the ceiling quotient |
| JavaLang.ContainsFrom | src/android/Capture.java:685 | the left-to-right scan from index `from` finds the pattern exactly when some occurrence starts at or after `from` |
| JavaLang.Contains | src/android/Capture.java:685 | `contains` holds exactly when the pattern occurs at some index |
| JavaLang.ParseBoolean | src/android/Capture.java:143-144 | a flag parses as true exactly when lowering its ASCII capitals gives "true"; in particular it then has four letters and begins with t or T |
| JavaLang.ParseBooleanExamples | src/android/Capture.java:143-144 | "true" in any letter case parses as true; "false", "", "1" and "null" parse as false |
| Media.MediaTypeOf | src/android/Capture.java:681-692 | a .3gp/.3gpp file is audio/3gpp exactly when its URI contains "/audio/" and video/3gpp exactly when it does not; any other file keeps the type its extension gives |
| Media.CreateMediaFile | src/android/Capture.java:648-701 | the descriptor carries the file's name, file URI, optional local URL, modification time and length, and the type `MediaTypeOf` decides from the absolute path and the item's URI |
| Media.FormatKindOf | src/android/Capture.java:182-188 | the image probe is chosen exactly for image/jpeg or a ".jpg" path; otherwise the audio probe for the four audio types; otherwise the video probe for video/3gpp and video/mp4 |
| Media.AudioVideoData | src/android/Capture.java:218-232 | a prepared player sets the duration in whole seconds, truncated, and for video also the frame size; audio keeps the given height and width; a failed player leaves the data as it was; bitrate and codecs are never touched |
| Media.GetFormatData | src/android/Capture.java:165-190 | the call throws a NullPointerException exactly when the MIME argument is missing ("" or "null") and no type can be guessed; otherwise it answers |
| Media.EffectiveMime | src/android/Capture.java:175-179 | a given type is used as is; a missing one ("" or "null") is replaced by the guess; nothing is known exactly when the type is missing and no guess exists |
| Media.MimeGuessedOnlyWhenMissing | src/android/Capture.java:175-179 | the type is guessed only when the argument is "" or "null": a given type makes the guess irrelevant, and a guessed type gives the answer the caller would get by passing it |
| Media.FormatDataFields | src/android/Capture.java:165-232 | bitrate and codecs stay at their defaults; an image reports only its decoded bounds; audio only its duration in whole seconds; video its duration and frame size; an unknown type or a failed player leaves all defaults |
| Media.UnknownDurationIsZero | src/android/Capture.java:223 | MediaPlayer's unknown duration of -1 ms becomes 0 s |
| Permissions.CameraPermissions | src/android/Capture.java:254-260 | the camera list starts with the two storage permissions and includes CAMERA exactly when the manifest declares it |
| Permissions.MissingPermissions | src/android/Capture.java:234-241 | a permission is missing exactly when it is listed and not held; nothing is missing exactly when all are held |
| Permissions.MissingKeepsOrder | src/android/Capture.java:234-245 | the missing permissions are requested in the order they were checked |
| Permissions.CollectMissing | src/android/Capture.java:235-241 | the loop collects exactly the missing permissions |
| Requests.ErrorCodeOf | src/android/Capture.java:84-89 | exactly the numbers 0, 3, 4 and 20 read back as error codes, each as the code with that value |
| Requests.CreateErrorObject | src/android/Capture.java:703-712 | the payload's number reads back as the error it was made from, and it carries the message unchanged |
| Requests.RequiredPermissionSet | src/android/Capture.java:250-260 | both storage permissions are always required; CAMERA is required exactly for image/video capture when the manifest declares it |
| Requests.IsMissingPermissions | src/android/Capture.java:234-248 | the loop reports missing permissions exactly when some listed permission is not held, agreeing with `PermissionPrompt`; it then prompts for exactly the missing ones under the request's code |
| Requests.PermissionPrompt | src/android/Capture.java:234-248 | there is no prompt exactly when all permissions are held; otherwise the prompt names the missing ones under the request's code |
| Requests.CaptureAudio | src/android/Capture.java:265-274 | it prompts exactly when a storage permission is missing; it starts the recorder exactly when all are held and a recorder exists; it fails with NotSupported exactly when all are held and none exists; it never succeeds or does nothing |
| Requests.ChooseIntent | src/android/Capture.java:304-313 | the "image" flag selects the still camera; otherwise the "video" flag selects the video camera; otherwise the chooser |
| Requests.CaptureImageOrVideoAsWritten | src/android/Capture.java:290-318 | with every permission held, any launch failure leaves the request with no effect at all |
| Requests.CameraLaunchFailureHangs | src/android/Capture.java:315-317 | with every permission held and no camera activity, the step as written neither launches nor resolves |
| Requests.CaptureImageOrVideo | src/android/Capture.java:290-318 | it prompts exactly when a required permission is missing and launches exactly when all are held and the launch succeeds; otherwise it fails with NotSupported (no activity) or InternalErr (other setup failure); every outcome is a prompt, a launch or a resolution |
| Requests.CaptureImageOrVideoRefines | src/android/Capture.java:290-318 | the corrected step agrees with the as-written one wherever the latter has an effect |
| Requests.ExecuteRequestAsWritten | src/android/Capture.java:759-768 | as written, restarting a request does nothing exactly when its action is image/video, every camera permission is held, and the camera cannot be started; it never succeeds outright |
| Requests.ExecuteRequest | src/android/Capture.java:759-768 | the corrected restart prompts exactly when a permission the action requires is missing; a launch is under the request's code, and it starts the recorder exactly for audio; the effect equals the as-written one wherever that does something, and is a failure where it does nothing; outside that hang, the only failure is audio's NotSupported |
| Requests.ExecuteRequestGated | src/android/Capture.java:759-768 | both the corrected and the as-written restart never succeed outright, launch only when every required permission is held, and prompt for exactly the missing ones; the corrected one always does something, the as-written one does nothing exactly when the camera hangs |
| Requests.AllGranted | src/android/Capture.java:775-781 | the scan reports success exactly when no entry of the outcome is PERMISSION_DENIED, which is the test `OnPermissionResult` branches on |
| Requests.OnPermissionResultAsWritten | src/android/Capture.java:770-789 | as written, any denial fails the request with PermissionDenied; no denial, an empty outcome included, runs the as-written capture step again |
| Requests.OnPermissionResult | src/android/Capture.java:770-789 | any denial fails the request with PermissionDenied; no denial, an empty outcome included, runs the corrected capture step again; the effect is the as-written one wherever that does something, and otherwise a failure, so it is never nothing |
| Requests.PermissionOutcomeFailsClosed | src/android/Capture.java:770-789 | an activity starts after a permission outcome only when nothing was denied and every required permission is held |
| Requests.OnAudioActivityResult | src/android/Capture.java:510-524 | the clip is appended at the end; the request resolves with all its clips exactly when the limit is reached, and otherwise the recorder is restarted |
| Requests.AudioAccumulationBound | src/android/Capture.java:515-523 | a well-formed audio request resolves holding exactly max(limit, 1) clips, and otherwise stays under its limit |
| Requests.OnImageActivityResult | src/android/Capture.java:549-553 | the image is appended and the request resolves with its results at once, whatever the limit |
| Requests.OnVideoActivityResult | src/android/Capture.java:611-639 | a success appends the item and resolves with every result; the null branch fails with NoMediaFiles and "Error: data is null", leaving the request as it was; either way the request resolves |
| Requests.VideoResultAlwaysSucceeds | src/android/Capture.java:611-639 | the cache-file fallback makes the null test dead: a video result always appends one item and resolves with success |
| Requests.OnIncompleteResult | src/android/Capture.java:426-451 | a non-OK result always resolves: with success carrying the accumulated items when there are any, else with NoMediaFiles (3), whose message is "Canceled." for RESULT_CANCELED and "Did not complete!" for any other code |
| Requests.OnActivityResult | src/android/Capture.java:400-452 | a non-OK result leaves the request as it was and resolves it; an OK result appends the produced item |
| Requests.ActivityResultResolvesOrRelaunches | src/android/Capture.java:400-452 | a non-OK result resolves, and fails exactly when nothing was accumulated; success always carries a non-empty result list; image or video resolves at once; an audio clip below the limit restarts the recorder and leaves a well-formed request; items are only appended |
| PendingRequests.Empty | src/android/Capture.java:100 | the registry starts with nothing pending and nothing delivered |
| PendingRequests.CreateRequest | src/android/Capture.java:147-150 | a new request has the given action and options and no results, under a code neither pending nor delivered before; nothing else changes |
| PendingRequests.Get | src/android/Capture.java:772-774 | the lookup finds a request exactly when its code is pending, and then the pending one |
| PendingRequests.Resolve | src/android/Capture.java:786 | resolving delivers one result for the code and releases it, keeping the registry valid |
| PendingRequests.Store | src/android/Capture.java:515 | an updated request stays pending under its own code and nothing is delivered |
| PendingRequests.Apply | src/android/Capture.java:515-523 | carrying out a step keeps the registry valid and the counter unchanged; a resolving effect adds exactly one delivery and releases the code; any other effect delivers nothing and keeps the updated request pending |
| PendingRequests.ApplyDeliversAtMostOnce | src/android/Capture.java:517-522 | a resolving effect delivers exactly one result, for a code not delivered before, and releases it; any other effect keeps the request pending; no other entry changes |
| PendingRequests.DeliveredExactlyOnce | src/android/Capture.java:772-774 | a delivered code appears exactly once in the delivery log and is no longer pending |
| Plugin.Initialize | src/android/Capture.java:108-132 | the plugin starts valid, with nothing pending or delivered, recording whether the manifest declares CAMERA |
| Plugin.RunCapture | src/android/Capture.java:759-768 | running a request's capture step keeps the plugin valid, its effect is the corrected `ExecuteRequest` (hence the as-written one wherever that does something), and it delivers at most that request's result, exactly when the step resolves; a camera step past its permission check saves the image count and records a placeholder owned by the request (lines 293-294 and 351), and any other step leaves both unchanged |
| Plugin.ArgString | src/android/Capture.java:137 | reading a string argument throws exactly when the index is past the end of the arguments |
| Plugin.Start | src/android/Capture.java:146-150 | starting a request keeps the plugin valid, replies with the next code, advances the counter, and delivers at most that request's result |
| Plugin.StartOutcome | src/android/Capture.java:146-150 | a new request takes the next code; if its first (corrected) step does not resolve it stays pending, and a failing step is delivered at once; a camera launch saves the image count and records a placeholder owned by the new request |
| Plugin.Execute | src/android/Capture.java:135-156 | "getFormatData" leaves the plugin unchanged; it throws exactly when one of its two string arguments is absent or `getFormatData` itself throws, and otherwise answers with that call's format data; any other action without an options object throws a NullPointerException |
| Plugin.ExecuteRouting | src/android/Capture.java:135-156 | exactly "captureAudio" and "captureImage" with both flags present start a request, with a fresh code, the matching action and the parsed flags; "getFormatData" and unknown actions leave the registry alone; every call keeps the plugin valid; an unknown action is refused only after both flags were read, and they stay overwritten |
| Plugin.PermissionResult | src/android/Capture.java:770-789 | an unknown code changes nothing; a known one gets the corrected handler's effect (the as-written one wherever that does something), keeping the plugin valid and delivering at most that request's result; when nothing is denied and the camera step passes its permission check, the image count is saved and the placeholder is recorded as the request's, and otherwise both stay as they were |
| Plugin.PermissionResultOutcome | src/android/Capture.java:770-789 | the effect is the corrected handler's; a non-resolving outcome keeps the registry as it was; a failure delivers the request's code and releases it |
| Plugin.DuplicateCleanup | src/android/Capture.java:732-744 | an image row is deleted exactly when the store grew by two; the row's _ID is one below the last row's, wrapping at the bottom of the `int` range |
| Plugin.DuplicateCleanupHasLastRow | src/android/Capture.java:732-740 | the duplicate check fires only after an image result with RESULT_OK, when the store holds exactly two rows more than the row count saved at launch, hence at least two rows |
| Plugin.CancelCleanupAsWritten | src/android/Capture.java:458-474 | as written, a cancel deletes the file behind the plugin-wide video URI exactly when one is set, whoever inserted it |
| Plugin.CancelCleanup | src/android/Capture.java:458-474 | corrected: a cancel deletes the placeholder exactly when the cancelled request's own launch inserted it |
| Plugin.ActivityResult | src/android/Capture.java:400-452 | an activity result keeps the plugin valid and its shared fields unchanged, and delivers at most this request's result, exactly when the handler resolves; an OK image result runs the duplicate check against the count saved at launch, and any other OK result keeps the store; after a non-OK result the cleanup equals the as-written one exactly when no other request owns the placeholder |
| Plugin.ActivityResultOutcome | src/android/Capture.java:400-452 | the request is delivered with the handler's resolution and released, or stays pending holding the items the handler accumulated |
| Plugin.AudioClipOutcome | src/android/Capture.java:510-524 | a clip is appended; at the limit the request is delivered with every clip; below it the request stays pending while the recorder restarts, or fails with NotSupported and drops its clips when no recorder answers |
| Plugin.CancelCleanupOwnPlaceholderOnly | src/android/Capture.java:427-440 | the corrected cleanup after a non-OK result only ever deletes the placeholder owned by the cancelled request |
| Plugin.NoSecondResolution | src/android/Capture.java:772-774 | a delivered code is no longer pending, so a later permission outcome for it changes nothing |
| Scenarios.FlagsRead | src/android/Capture.java:142-150 | a capture call reads both flags into the plugin's settings and then starts the request |
| Scenarios.CameraMissingResolves | src/android/Capture.java:290-318 | with the corrected launch step, a missing camera activity fails the request at once with NotSupported, leaving nothing pending |
| Scenarios.PhotoCameraStarts | src/android/Capture.java:304-305 | with the "image" flag set and permissions held, the still camera is launched under code 0 |
| Scenarios.SinglePhotoSucceeds | src/android/Capture.java:528-553 | one photo resolves the request with exactly that photo, and with no duplicate row in the store deletes nothing |
| Scenarios.DuplicatePhotoDeletesRow | src/android/Capture.java:732-744 | when the image store grew by two rows since the launch, the photo is still delivered and the row whose _ID is one below the last row's is deleted |
| Scenarios.CancelBeforePhotoFails | src/android/Capture.java:427-436 | cancelling before any photo fails with NoMediaFiles and "Canceled." and deletes the request's own placeholder |
| Scenarios.RecordingStarts | src/android/Capture.java:265-270 | with permissions held, audio capture starts the recorder under code 0 |
| Scenarios.RecordingContinues | src/android/Capture.java:520-523 | below the limit, a clip is appended at the end and the recorder restarts |
| Scenarios.RecordingEnds | src/android/Capture.java:517-519 | the clip that reaches the limit delivers every clip in recording order |
| Scenarios.StoragePrompted | src/android/Capture.java:265-266 | with nothing held, audio capture asks for both storage permissions in order and starts no activity |
| Scenarios.DeniedStorageNeverLaunches | src/android/Capture.java:783-787 | a denied prompt fails the request with PermissionDenied, and a repeated outcome is ignored |
| Scenarios.VideoCameraStarts | src/android/Capture.java:306-307 | with only the "video" flag set, the video camera is launched and the placeholder is recorded as request 0's |
| Scenarios.VideoIsDelivered | src/android/Capture.java:611-639 | the recorded video is delivered to request 0's caller |
| Scenarios.AudioStartsAfterVideo | src/android/Capture.java:146-147 | a later audio request takes code 1 and leaves the video placeholder of request 0 recorded |
| Scenarios.CancelledAudioDeletesDeliveredVideo | src/android/Capture.java:458-474 | cancelling that audio request makes the as-written cleanup target request 0's delivered video, while the corrected cleanup keeps the store |

## Left out

- The image pipeline of `onImageActivityResult` is left out: decoding, JPEG re-compression, the 90° rotation, `insertImage` and the EXIF copy (bitmaps and floating point). The resulting descriptor is an input.
- `getImageData` and `getAudioVideoData` call BitmapFactory and MediaPlayer. Their answers are inputs, not computed.
- `checkURIResource` is a content-resolver query and a file-existence test, modelled as a boolean input. Its else branch calls `close` on a null cursor. That branch is not modelled.
- `createMediaFile` resolves the File plugin by reflection and maps the URI to a file. The file's facts are inputs.
- `pluginInitialize` scans the manifest. Its answer is the `cameraInManifest` parameter.
- The `limit`, `duration` and `quality` options are parsed inside the registry class, which is not part of this model. They arrive as `RequestOptions`.
- Intent construction is left out: content values, EXTRA_OUTPUT, the duration and quality extras, and the chooser's initial intents. A launch is described only by which activity it starts.
- The thread-pool hop of `onActivityResult` and of the cleanup is left out. Each event is one atomic step.
- `onSaveInstanceState` / `onRestoreStateForActivityResult` and the snapshot round trip are left out. They delegate entirely to the registry class, which is not part of this model.
- Plugin.ActivityResult: the source dereferences the looked-up request without a null check, so a result for an unknown code throws. The model requires the code to be pending.
- Plugin.RunCapture: the image count and the video placeholder are recorded whenever the camera permissions are held. The source records the placeholder only once setting up the video intent has got that far.
- Plugin.DuplicateCleanup: the `_ID` is an input `int`. Parsing it from the cursor's string (which could throw) is not modelled.
- Requests.CaptureImageOrVideo: the model distinguishes only "no camera activity" from "any other setup exception". The messages of the two failures are not in the source; they come from the correction below.
- Requests.ExecuteRequest: runs the corrected camera step. Where the code as written leaves the request pending (every permission held, the camera cannot start), it fails the request instead. Its contract states that this is the only difference.
- Requests.ExecuteRequestGated: "always does something" holds of the corrected step only. The as-written step does nothing exactly when the camera hangs, which the same lemma states.
- Requests.OnPermissionResult: re-runs the corrected step, so in the hang case it fails the request where the code as written leaves it pending. `Requests.OnPermissionResultAsWritten` is the step as written.
- Plugin.RunCapture: its effect is the corrected step's, so in the hang case it delivers a failure where the code as written delivers nothing and keeps the request pending.
- Plugin.Start: built on the corrected step, as Plugin.RunCapture is.
- Plugin.StartOutcome: the first step is the corrected one. A camera that cannot be started delivers a failure here, while the code as written leaves the new request pending.
- Plugin.PermissionResult: a known code gets the corrected handler's effect. In the hang case that effect is a failure where the code as written does nothing.
- Plugin.PermissionResultOutcome: equates the effect with the corrected handler's, as Plugin.PermissionResult does.
- Plugin.ActivityResult: after a non-OK result it reports the corrected cleanup, which deletes only the cancelled request's own placeholder. The code as written deletes whatever placeholder is recorded. The contract states when the two differ.
- Requests.OnImageActivityResult: always appends the item and resolves. The crash paths of the source are not modelled, and on each of them the request is never resolved:
  - an IOException while reading or re-saving the picture (line 544) leaves `path` null, and `Uri.parse(path)` at line 549 then throws;
  - a bitmap the decoder cannot produce makes `bmp.compress` throw a NullPointerException (line 536), which nothing catches.
- Requests.OnAudioActivityResult: always appends the clip. The source throws if the result's `intent` is null (line 512), and the request is then never resolved.
- Media.CreateMediaFile: the descriptor is always built. The source throws if neither reflective lookup finds the plugin manager, or if the File plugin is missing (line 670).

## Findings

| source | as written | input that shows it | evidently intended | confidence | as-written member | corrected member |
|---|---|---|---|---|---|---|
| src/android/Capture.java:315-317 | `captureImageOrVideo` catches every exception from setting up or starting the camera and only prints it, so the request is neither launched nor resolved and its caller is never answered | all permissions held, no activity answers the camera intent | fail the request the way `captureAudio` does (lines 271-272): NotSupported when no activity answers, an internal error otherwise | medium, not executed | Requests.CaptureImageOrVideoAsWritten (counterexample Requests.CameraLaunchFailureHangs) | Requests.CaptureImageOrVideo (Requests.CaptureImageOrVideoRefines, Scenarios.CameraMissingResolves) |
| src/android/Capture.java:428 | on any cancelled or incomplete result, `CleanUpEmptyVideo` (lines 458-474) deletes whatever file the plugin-wide `videoUri` points at. That field is only overwritten by the next camera launch, so after a video has been delivered, cancelling a later audio request deletes the delivered video | capture a video and receive it, then start audio capture and cancel the recorder | delete only the empty placeholder inserted by the cancelled request's own camera launch | medium, not executed | Plugin.CancelCleanupAsWritten (counterexample Scenarios.CancelledAudioDeletesDeliveredVideo) | Plugin.CancelCleanup (Plugin.CancelCleanupOwnPlaceholderOnly) |

=== FILE: javalang.dfy ===
/** The few pieces of the Java and Android libraries whose exact behaviour the
    capture plugin's decisions depend on: string suffix and substring tests,
    `Boolean.parseBoolean`, 32-bit `int` arithmetic and integer division, and the
    unchecked exceptions a handler can raise. */
module JavaLang {

  /** The exceptions the modelled code can raise instead of returning. */
  datatype Fault = NullPointer | JsonException

  predicate IsInt32(x: int) {
    -0x8000_0000 <= x < 0x8000_0000
  }

  /** Java's `int`. */
  type Int32 = x: int | -0x8000_0000 <= x < 0x8000_0000

  /** A 32-bit `int` result: the mathematical value wrapped modulo 2^32 into the
      signed range, as Java's `int` arithmetic does. */
  function Wrap32(x: int): (r: Int32)
    ensures (x - r) % 0x1_0000_0000 == 0
    ensures IsInt32(x) ==> r == x
  {
    (x + 0x8000_0000) % 0x1_0000_0000 - 0x8000_0000
  }

  /** Java's `/` on `int`, which truncates toward zero; Dafny's `/` is Euclidean. */
  function JavaDiv(a: int, b: int): (q: int)
    requires b > 0
    ensures a >= 0 ==> q >= 0 && q * b <= a < q * b + b
    ensures a < 0 ==> q <= 0 && q * b - b < a <= q * b
  {
    if a >= 0 then a / b else -((-a) / b)
  }

  /** `String.endsWith`. */
  predicate EndsWith(s: string, suffix: string) {
    |suffix| <= |s| && s[|s| - |suffix|..] == suffix
  }

  /** `pattern` occurs in `s` starting at index `i`. */
  predicate OccursAt(s: string, pattern: string, i: nat) {
    i + |pattern| <= |s| && s[i..i + |pattern|] == pattern
  }

  /** `String.contains`, as a left-to-right scan from index `from`. */
  function ContainsFrom(s: string, pattern: string, from: nat): (b: bool)
    requires from <= |s|
    ensures b <==> exists i: nat :: from <= i && OccursAt(s, pattern, i)
    decreases |s| - from
  {
    if OccursAt(s, pattern, from) then true
    else if from == |s| then false
    else ContainsFrom(s, pattern, from + 1)
  }

  function Contains(s: string, pattern: string): (b: bool)
    ensures b <==> exists i: nat :: OccursAt(s, pattern, i)
  {
    ContainsFrom(s, pattern, 0)
  }

  function LowerAscii(c: char): char {
    if 'A' <= c <= 'Z' then (c as int + 32) as char else c
  }

  /** `String.equalsIgnoreCase`, restricted to the letters that can match the
      ASCII word it is used with here. */
  predicate EqualsIgnoreCase(a: string, b: string) {
    |a| == |b| && forall i :: 0 <= i < |a| ==> LowerAscii(a[i]) == LowerAscii(b[i])
  }

  /** `s` with every ASCII capital lowered, one character at a time. */
  function LowerAll(s: string): (t: string)
    ensures |t| == |s|
    ensures forall i :: 0 <= i < |s| ==> t[i] == LowerAscii(s[i])
  {
    if s == [] then [] else [LowerAscii(s[0])] + LowerAll(s[1..])
  }

  /** `Boolean.parseBoolean`: true exactly for "true" in any letter case. */
  function ParseBoolean(s: string): (b: bool)
    ensures b <==> LowerAll(s) == "true"
    ensures b ==> |s| == 4 && LowerAscii(s[0]) == 't'
  {
    var r := EqualsIgnoreCase(s, "true");
    assert r ==> LowerAll(s) == "true" by {
      if r {
        forall i | 0 <= i < 4
          ensures LowerAll(s)[i] == "true"[i]
        {
          assert LowerAscii("true"[i]) == "true"[i];
        }
      }
    }
    assert LowerAll(s) == "true" ==> r by {
      if LowerAll(s) == "true" {
        forall i | 0 <= i < |s|
          ensures LowerAscii(s[i]) == LowerAscii("true"[i])
        {
          assert LowerAll(s)[i] == "true"[i];
        }
      }
    }
    r
  }

  lemma ParseBooleanExamples()
    ensures ParseBoolean("true") && ParseBoolean("TRUE") && ParseBoolean("True")
    ensures !ParseBoolean("false") && !ParseBoolean("") && !ParseBoolean("1") && !ParseBoolean("null")
  {
  }
}

=== FILE: media.dfy ===
/** The classification helpers of `Capture.java`: which MIME type a captured
    file is reported with, and which probe `getFormatData` consults for a given
    path and MIME type. The probes themselves (BitmapFactory, MediaPlayer) are
    opaque: their answers arrive as a `Probe` value. */
module Media {
  import opened Wrappers
  import opened JavaLang

  const Video3gpp: string := "video/3gpp"
  const VideoMp4: string := "video/mp4"
  const Audio3gpp: string := "audio/3gpp"
  const AudioTypes: seq<string> := ["audio/3gpp", "audio/aac", "audio/amr", "audio/wav"]
  const ImageJpeg: string := "image/jpeg"

  /** The descriptor a successful capture hands back for one item. */
  datatype MediaFile = MediaFile(
    name: string,
    fullPath: string,
    localUrl: Option<string>,
    mimeType: string,
    lastModifiedDate: int,
    size: int)

  /** What the file system and the File plugin report about a captured file:
      its name, absolute path, `file:` URI, optional local filesystem URL, the
      type guessed from its extension, modification time and length. */
  datatype FileFacts = FileFacts(
    name: string,
    absolutePath: string,
    fileUri: string,
    localUrl: Option<string>,
    extensionType: string,
    lastModified: int,
    length: int)

  predicate Is3gpPath(path: string) {
    EndsWith(path, ".3gp") || EndsWith(path, ".3gpp")
  }

  /** The type recorded for a captured file. The extension lookup reports every
      .3gp/.3gpp file as video, so for those the content-store URI decides. */
  function MediaTypeOf(absolutePath: string, uri: string, extensionType: string): (t: string)
    ensures Is3gpPath(absolutePath) ==>
              (t == Audio3gpp <==> exists i: nat :: OccursAt(uri, "/audio/", i))
    ensures Is3gpPath(absolutePath) ==>
              (t == Video3gpp <==> !exists i: nat :: OccursAt(uri, "/audio/", i))
    ensures !Is3gpPath(absolutePath) ==> t == extensionType
  {
    if Is3gpPath(absolutePath) then
      if Contains(uri, "/audio/") then Audio3gpp else Video3gpp
    else
      extensionType
  }

  /** The descriptor built for the item found at `uri`. */
  function CreateMediaFile(uri: string, f: FileFacts): (m: MediaFile)
    ensures m.name == f.name && m.fullPath == f.fileUri && m.localUrl == f.localUrl
    ensures m.mimeType == MediaTypeOf(f.absolutePath, uri, f.extensionType)
    ensures m.lastModifiedDate == f.lastModified && m.size == f.length
  {
    MediaFile(f.name, f.fileUri, f.localUrl, MediaTypeOf(f.absolutePath, uri, f.extensionType),
              f.lastModified, f.length)
  }

  /** The media-file data `getFormatData` answers with. */
  datatype FormatData = FormatData(height: int, width: int, bitrate: int, duration: int, codecs: string)

  const DefaultFormat: FormatData := FormatData(0, 0, 0, 0, "")

  /** What MediaPlayer reports once prepared: duration in milliseconds (-1 when
      unknown) and the video frame size. */
  datatype PlayerInfo = PlayerInfo(durationMillis: int, videoHeight: int, videoWidth: int)

  /** The answers of the collaborators `getFormatData` consults: the type
      FileHelper guesses for the file (None when it cannot), the bounds
      BitmapFactory decodes, and MediaPlayer's report (None when preparing it
      throws an IOException). */
  datatype Probe = Probe(
    guessedType: Option<string>,
    boundsHeight: int,
    boundsWidth: int,
    player: Option<PlayerInfo>)

  /** The probe `getFormatData` chooses. */
  datatype FormatKind = ImageFormat | AudioFormat | VideoFormat | UnknownFormat

  /** A MIME type argument that carries no information and must be guessed. */
  predicate MimeMissing(mimeType: string) {
    mimeType == "" || mimeType == "null"
  }

  function FormatKindOf(filePath: string, mimeType: string): (k: FormatKind)
    ensures k == ImageFormat <==> mimeType == ImageJpeg || EndsWith(filePath, ".jpg")
    ensures k == AudioFormat <==> k != ImageFormat && mimeType in AudioTypes
    ensures k == VideoFormat <==>
              k != ImageFormat && mimeType !in AudioTypes && (mimeType == Video3gpp || mimeType == VideoMp4)
  {
    if mimeType == ImageJpeg || EndsWith(filePath, ".jpg") then ImageFormat
    else if mimeType in AudioTypes then AudioFormat
    else if mimeType == Video3gpp || mimeType == VideoMp4 then VideoFormat
    else UnknownFormat
  }

  /** The audio/video probe: duration in whole seconds, and the frame size for
      video; an IOException leaves `data` as it was. */
  function AudioVideoData(data: FormatData, player: Option<PlayerInfo>, video: bool): (r: FormatData)
    ensures r.bitrate == data.bitrate && r.codecs == data.codecs
    ensures player.None? ==> r == data
    ensures player.Some? ==> r.duration == JavaDiv(player.value.durationMillis, 1000)
    ensures player.Some? && video ==>
              r.height == player.value.videoHeight && r.width == player.value.videoWidth
    ensures !video ==> r.height == data.height && r.width == data.width
  {
    match player
    case None => data
    case Some(info) =>
      var timed := data.(duration := JavaDiv(info.durationMillis, 1000));
      if video then timed.(height := info.videoHeight, width := info.videoWidth) else timed
  }

  /** `getFormatData(filePath, mimeType)`. The MIME argument comes from
      `JSONArray.getString`, which never yields null, so a missing type shows
      up as "" or "null"; a guess of null makes the comparisons that follow
      throw. */
  function GetFormatData(filePath: string, mimeType: string, probe: Probe): (r: Result<FormatData, Fault>)
    ensures r.Failure? <==> MimeMissing(mimeType) && probe.guessedType.None?
    ensures r.Failure? ==> r.error == NullPointer
  {
    match EffectiveMime(mimeType, probe)
    case None => Failure(NullPointer)
    case Some(m) =>
      Success(
        match FormatKindOf(filePath, m)
        case ImageFormat => DefaultFormat.(height := probe.boundsHeight, width := probe.boundsWidth)
        case AudioFormat => AudioVideoData(DefaultFormat, probe.player, false)
        case VideoFormat => AudioVideoData(DefaultFormat, probe.player, true)
        case UnknownFormat => DefaultFormat)
  }

  /** The MIME type `getFormatData` classifies by: the caller's, unless it is
      missing, in which case the guessed one. */
  function EffectiveMime(mimeType: string, probe: Probe): (m: Option<string>)
    ensures m.None? <==> MimeMissing(mimeType) && probe.guessedType.None?
    ensures !MimeMissing(mimeType) ==> m == Some(mimeType)
    ensures MimeMissing(mimeType) ==> m == probe.guessedType
  {
    if MimeMissing(mimeType) then probe.guessedType else Some(mimeType)
  }

  /** What each probe contributes: bitrate and codecs are never filled in;
      images report only their bounds; audio only its duration; video its
      duration and frame size; any other type, and any failed player, leaves
      the defaults. */
  lemma FormatDataFields(filePath: string, mimeType: string, probe: Probe)
    requires EffectiveMime(mimeType, probe).Some?
    ensures var r := GetFormatData(filePath, mimeType, probe);
            var kind := FormatKindOf(filePath, EffectiveMime(mimeType, probe).value);
            && r.Success?
            && r.value.bitrate == 0 && r.value.codecs == ""
            && (kind == ImageFormat ==>
                  r.value == FormatData(probe.boundsHeight, probe.boundsWidth, 0, 0, ""))
            && (kind == UnknownFormat ==> r.value == DefaultFormat)
            && ((kind == AudioFormat || kind == VideoFormat) && probe.player.None? ==>
                  r.value == DefaultFormat)
            && (kind == AudioFormat && probe.player.Some? ==>
                  r.value == FormatData(0, 0, 0, JavaDiv(probe.player.value.durationMillis, 1000), ""))
            && (kind == VideoFormat && probe.player.Some? ==>
                  r.value == FormatData(probe.player.value.videoHeight, probe.player.value.videoWidth, 0,
                                        JavaDiv(probe.player.value.durationMillis, 1000), ""))
  {
  }

  /** The type is guessed only when the argument carries none: a given type
      makes the guess irrelevant, and a guess is used exactly as if the caller
      had passed it. */
  lemma MimeGuessedOnlyWhenMissing(filePath: string, mimeType: string, probe: Probe, guess: Option<string>)
    ensures !MimeMissing(mimeType) ==>
              GetFormatData(filePath, mimeType, probe) == GetFormatData(filePath, mimeType, probe.(guessedType := guess))
    ensures MimeMissing(mimeType) && probe.guessedType.Some? && !MimeMissing(probe.guessedType.value) ==>
              GetFormatData(filePath, mimeType, probe) == GetFormatData(filePath, probe.guessedType.value, probe)
  {
  }

  /** MediaPlayer reports an unknown duration as -1; truncating division turns
      it into 0 seconds rather than -1. */
  lemma UnknownDurationIsZero()
    ensures JavaDiv(-1, 1000) == 0
  {
  }
}

=== FILE: permissions.dfy ===
/** The permission sets a capture needs and the subset still missing. Storage
    permissions are always needed; CAMERA joins them for image/video capture only
    when the host application's manifest declares it (an Android rule: a declared
    but ungranted CAMERA permission makes the camera intent fail). */
module Permissions {

  datatype Permission = ReadExternalStorage | WriteExternalStorage | Camera

  const StoragePermissions: seq<Permission> := [ReadExternalStorage, WriteExternalStorage]

  /** The list checked before image/video capture. */
  function CameraPermissions(cameraInManifest: bool): (ps: seq<Permission>)
    ensures |ps| >= |StoragePermissions| && ps[..|StoragePermissions|] == StoragePermissions
    ensures Camera in ps <==> cameraInManifest
    ensures |ps| == |StoragePermissions| + (if cameraInManifest then 1 else 0)
  {
    StoragePermissions + (if cameraInManifest then [Camera] else [])
  }

  /** Every permission of `ps` is currently held. */
  predicate AllHeld(ps: seq<Permission>, granted: set<Permission>) {
    forall p :: p in ps ==> p in granted
  }

  /** The permissions of `ps` not held, in the order `ps` lists them. */
  function MissingPermissions(ps: seq<Permission>, granted: set<Permission>): (m: seq<Permission>)
    ensures forall p :: p in m <==> p in ps && p !in granted
    ensures |m| <= |ps|
    ensures m == [] <==> AllHeld(ps, granted)
    decreases |ps|
  {
    if ps == [] then []
    else
      var last := ps[|ps| - 1];
      assert ps == ps[..|ps| - 1] + [last];
      MissingPermissions(ps[..|ps| - 1], granted) + (if last in granted then [] else [last])
  }

  /** `a` can be obtained from `b` by deleting elements. */
  ghost predicate IsSubsequence<T>(a: seq<T>, b: seq<T>)
    decreases |b|
  {
    || a == []
    || (b != [] &&
        ((a[|a| - 1] == b[|b| - 1] && IsSubsequence(a[..|a| - 1], b[..|b| - 1])) ||
         IsSubsequence(a, b[..|b| - 1])))
  }

  /** The missing permissions are requested in the order they were checked. */
  lemma {:induction false} MissingKeepsOrder(ps: seq<Permission>, granted: set<Permission>)
    ensures IsSubsequence(MissingPermissions(ps, granted), ps)
    decreases |ps|
  {
    if ps != [] {
      var prefix := ps[..|ps| - 1];
      var last := ps[|ps| - 1];
      var m0 := MissingPermissions(prefix, granted);
      MissingKeepsOrder(prefix, granted);
      var m := MissingPermissions(ps, granted);
      if last in granted {
        assert m == m0;
      } else {
        assert m == m0 + [last];
        assert m[..|m| - 1] == m0;
      }
    }
  }

  /** The loop of `isMissingPermissions`, which collects each permission not
      held into a list. */
  method CollectMissing(ps: seq<Permission>, granted: set<Permission>) returns (missing: seq<Permission>)
    ensures missing == MissingPermissions(ps, granted)
  {
    missing := [];
    var i := 0;
    while i < |ps|
      invariant 0 <= i <= |ps|
      invariant missing == MissingPermissions(ps[..i], granted)
    {
      if ps[i] !in granted {
        missing := missing + [ps[i]];
      }
      assert ps[..i + 1][..i] == ps[..i];
      i := i + 1;
    }
    assert ps[..|ps|] == ps;
  }
}

=== FILE: plugin.dfy ===
/** The capture plugin as a state machine. Its state is the registry of
    pending requests plus the plugin-wide fields the handlers share: the
    CAMERA-in-manifest flag, the "image"/"video" flags of the latest call, the
    image count saved before the last camera launch, and the video placeholder
    that launch inserted. Three events drive it — `execute` from the
    application, a permission outcome, and an activity result — and each is
    an atomic step over that state. */
module Plugin {
  import opened Wrappers
  import opened JavaLang
  import opened Media
  import opened Permissions
  import opened Requests
  import opened PendingRequests

  /** The video placeholder a camera launch inserted into the video content
      store, with the code of the request that launched it. */
  datatype Placeholder = Placeholder(uri: string, owner: int)

  datatype Plugin = Plugin(
    registry: Registry,
    settings: Settings,
    numPics: int,
    videoUri: Option<Placeholder>)

  /** What the device answers during one event: capabilities for a (re)start,
      the image content store's row count and the _ID of its last row, the URI
      a newly inserted video placeholder gets, what the capture activity
      produced, and the cache-directory file URI a video result falls back to. */
  datatype Device = Device(
    caps: Capabilities,
    imageCount: nat,
    lastImageId: Int32,
    newVideoUri: string,
    produced: Produced,
    fallbackUri: string)

  /** Content-store housekeeping an activity result asks for. */
  datatype Cleanup = KeepStore | DeleteImage(id: Int32) | DeleteVideoFile(uri: string)

  /** The registry is valid, and the saved image count is a row count. */
  ghost predicate ValidPlugin(p: Plugin) {
    PendingRequests.Valid(p.registry) && p.numPics >= 0
  }

  /** `pluginInitialize`, with the manifest scan's answer as a parameter. */
  function Initialize(cameraInManifest: bool): (p: Plugin)
    ensures ValidPlugin(p) && p.registry.pending == map[] && p.registry.delivered == []
    ensures p.settings.cameraInManifest == cameraInManifest
  {
    Plugin(Empty(), Settings(cameraInManifest, false, false), 0, None)
  }

  /** The delivery log grew by at most one entry, and only for `code`, which
      had not been delivered before. */
  ghost predicate DeliversAtMostOnce(r: Registry, r': Registry, code: int) {
    || r'.delivered == r.delivered
    || (&& |r'.delivered| == |r.delivered| + 1
        && r'.delivered[..|r.delivered|] == r.delivered
        && r'.delivered[|r.delivered|].requestCode == code
        && !WasDelivered(r, code)
        && code !in r'.pending)
  }

  /** The camera step for `req` gets past its permission check, so it saves
      the image count and inserts a video placeholder before launching. */
  predicate CameraStepRuns(p: Plugin, req: Request, device: Device) {
    req.action == ImageOrVideo && AllHeld(CameraPermissions(p.settings.cameraInManifest), device.caps.granted)
  }

  /** `executeRequest` against the plugin: the capture step for `req`; an
      image/video step that gets past the permission check first saves the
      image count and inserts a video placeholder owned by `req`, and any
      other step leaves both fields alone. */
  function RunCapture(p: Plugin, req: Request, device: Device): (res: (Plugin, Effect))
    requires ValidPlugin(p) && req.requestCode in p.registry.pending && WellFormed(req)
    ensures var (p', e) := res;
            && ValidPlugin(p')
            && e == ExecuteRequest(req, p.settings, device.caps)
            && p'.settings == p.settings
            && DeliversAtMostOnce(p.registry, p'.registry, req.requestCode)
            && (e.Resolves() <==> p'.registry.delivered != p.registry.delivered)
            && (CameraStepRuns(p, req, device) ==>
                  p'.numPics == device.imageCount &&
                  p'.videoUri == Some(Placeholder(device.newVideoUri, req.requestCode)))
            && (!CameraStepRuns(p, req, device) ==> p'.numPics == p.numPics && p'.videoUri == p.videoUri)
  {
    var e := ExecuteRequest(req, p.settings, device.caps);
    ApplyDeliversAtMostOnce(p.registry, Step(req, e));
    var launched :=
      if CameraStepRuns(p, req, device)
      then p.(numPics := device.imageCount, videoUri := Some(Placeholder(device.newVideoUri, req.requestCode)))
      else p;
    (launched.(registry := Apply(p.registry, Step(req, e))), e)
  }

  /** One element of the `args` array `execute` receives: a string (or any
      scalar, by its string form), or an object with its fields in string form
      and its JSON text. */
  datatype Arg = Text(text: string) | Object(fields: map<string, string>, json: string)

  /** What `execute` does for the application. */
  datatype Reply =
    | FormatReply(data: FormatData)
    | Started(requestCode: int, effect: Effect)
    | NotHandled
    | Threw(fault: Fault)

  /** `JSONArray.getString(i)`. */
  function ArgString(args: seq<Arg>, i: nat): (r: Result<string, Fault>)
    ensures r.Failure? <==> i >= |args|
  {
    if i >= |args| then Failure(JsonException)
    else match args[i]
      case Text(t) => Success(t)
      case Object(_, json) => Success(json)
  }

  /** `JSONArray.optJSONObject(0)`. */
  function OptFirstObject(args: seq<Arg>): Option<map<string, string>> {
    if |args| > 0 && args[0].Object? then Some(args[0].fields) else None
  }

  /** Create a request for `action` and run its first capture step: the
      reply names the fresh code, and at most that request is delivered. */
  function Start(p: Plugin, action: Action, options: RequestOptions, device: Device): (res: (Plugin, Reply))
    requires ValidPlugin(p)
    ensures var (p', reply) := res;
            && ValidPlugin(p')
            && reply.Started? && reply.requestCode == p.registry.nextCode
            && p'.registry.nextCode == p.registry.nextCode + 1
            && DeliversAtMostOnce(p.registry, p'.registry, reply.requestCode)
  {
    var (r1, req) := CreateRequest(p.registry, action, options);
    var (p', e) := RunCapture(p.(registry := r1), req, device);
    (p', Started(req.requestCode, e))
  }

  /** Starting a request: it gets the next code and no results, its first
      capture step runs, and only that step's effect decides whether it stays
      pending or is delivered at once. */
  lemma StartOutcome(p: Plugin, action: Action, options: RequestOptions, device: Device)
    requires ValidPlugin(p)
    ensures var code := p.registry.nextCode;
            var req := Request(code, action, options.limit, options.duration, options.quality, []);
            var e := ExecuteRequest(req, p.settings, device.caps);
            var (p', reply) := Start(p, action, options, device);
            && reply == Started(code, e)
            && p'.settings == p.settings
            && (!e.Resolves() ==>
                  p'.registry == Registry(p.registry.pending[code := req], code + 1, p.registry.delivered))
            && (e.ResolveFailure? ==>
                  p'.registry == Registry(p.registry.pending, code + 1,
                                          p.registry.delivered + [Delivery(code, Failed(e.error))]))
            && (action == Audio ==> p'.numPics == p.numPics && p'.videoUri == p.videoUri)
            && (action == ImageOrVideo && e.Launch? ==>
                  p'.numPics == device.imageCount &&
                  p'.videoUri == Some(Placeholder(device.newVideoUri, code)))
  {
    var code := p.registry.nextCode;
    var (r1, req) := CreateRequest(p.registry, action, options);
    var e := ExecuteRequest(req, p.settings, device.caps);
    ApplyDeliversAtMostOnce(r1, Step(req, e));
    ExecuteRequestGated(req, p.settings, device.caps);
    if e.ResolveFailure? {
      assert r1.pending - {code} == p.registry.pending;
    }
  }

  /** `execute(action, args, callback)`. "getFormatData" answers at once.
      Every other action first reads the "image" and "video" flags from the
      options object, which overwrites them even for an action then refused;
      "captureAudio" and "captureImage" each create one request and start it. */
  function Execute(p: Plugin, action: string, args: seq<Arg>, options: RequestOptions, probe: Probe, device: Device)
    : (res: (Plugin, Reply))
    requires ValidPlugin(p)
    ensures action == "getFormatData" ==> res.0 == p && (res.1.FormatReply? || res.1.Threw?)
    ensures action == "getFormatData" ==>
              (res.1.Threw? <==>
                 |args| < 2 || GetFormatData(ArgString(args, 0).value, ArgString(args, 1).value, probe).Failure?)
    ensures action != "getFormatData" && OptFirstObject(args).None? ==> res == (p, Threw(NullPointer))
    ensures res.1.FormatReply? ==>
              |args| >= 2 && GetFormatData(ArgString(args, 0).value, ArgString(args, 1).value, probe) ==
                             Success(res.1.data)
  {
    if action == "getFormatData" then
      match ArgString(args, 0)
      case Failure(f) => (p, Threw(f))
      case Success(path) =>
        match ArgString(args, 1)
        case Failure(f) => (p, Threw(f))
        case Success(mime) =>
          match GetFormatData(path, mime, probe)
          case Failure(f) => (p, Threw(f))
          case Success(data) => (p, FormatReply(data))
    else
      match OptFirstObject(args)
      case None => (p, Threw(NullPointer))
      case Some(fields) =>
        if "image" !in fields then (p, Threw(JsonException))
        else
          var p1 := p.(settings := p.settings.(multipleImageReq := ParseBoolean(fields["image"])));
          if "video" !in fields then (p1, Threw(JsonException))
          else
            var p2 := p1.(settings := p1.settings.(multipleVideoReq := ParseBoolean(fields["video"])));
            if action == "captureAudio" then Start(p2, Audio, options, device)
            else if action == "captureImage" then Start(p2, ImageOrVideo, options, device)
            else (p2, NotHandled)
  }

  /** Routing of `execute`: only "captureAudio" and "captureImage" create a
      request — exactly one, fresh, of the matching action, with the flags
      the options carry — "getFormatData" and unknown actions leave the
      registry alone, though an unknown action still overwrites the flags;
      every call keeps the plugin valid and delivers at most the new
      request's result. */
  lemma ExecuteRouting(p: Plugin, action: string, args: seq<Arg>, options: RequestOptions, probe: Probe, device: Device)
    requires ValidPlugin(p)
    ensures var (p', reply) := Execute(p, action, args, options, probe, device);
            && ValidPlugin(p')
            && (reply.Started? <==>
                  (action == "captureAudio" || action == "captureImage") &&
                  OptFirstObject(args).Some? &&
                  "image" in OptFirstObject(args).value && "video" in OptFirstObject(args).value)
            && (reply.Started? ==>
                  && reply.requestCode == p.registry.nextCode
                  && p'.registry.nextCode == p.registry.nextCode + 1
                  && p'.settings.multipleImageReq == ParseBoolean(OptFirstObject(args).value["image"])
                  && p'.settings.multipleVideoReq == ParseBoolean(OptFirstObject(args).value["video"])
                  && (reply.requestCode in p'.registry.pending ==>
                        p'.registry.pending[reply.requestCode].action ==
                          (if action == "captureAudio" then Audio else ImageOrVideo))
                  && DeliversAtMostOnce(p.registry, p'.registry, reply.requestCode))
            && (!reply.Started? ==> p'.registry == p.registry)
            && (reply.NotHandled? ==>
                  && OptFirstObject(args).Some?
                  && "image" in OptFirstObject(args).value && "video" in OptFirstObject(args).value
                  && p'.settings.multipleImageReq == ParseBoolean(OptFirstObject(args).value["image"])
                  && p'.settings.multipleVideoReq == ParseBoolean(OptFirstObject(args).value["video"]))
            && (action == "getFormatData" ==> p' == p && !reply.NotHandled?)
            && (reply.NotHandled? ==> action != "captureAudio" && action != "captureImage" && action != "getFormatData")
  {
    if action != "getFormatData" && OptFirstObject(args).Some? {
      var fields := OptFirstObject(args).value;
      if "image" in fields && "video" in fields {
        var p1 := p.(settings := p.settings.(multipleImageReq := ParseBoolean(fields["image"])));
        var p2 := p1.(settings := p1.settings.(multipleVideoReq := ParseBoolean(fields["video"])));
        if action == "captureAudio" || action == "captureImage" {
          var kind := if action == "captureAudio" then Audio else ImageOrVideo;
          StartOutcome(p2, kind, options, device);
        }
      }
    }
  }

  /** `onRequestPermissionResult`: an unknown code is ignored; a known request
      fails on any denial and otherwise runs its capture step again, which
      for a camera step past its permission check saves the image count and
      records the request's placeholder. */
  function PermissionResult(p: Plugin, code: int, grantResults: seq<int>, device: Device): (res: (Plugin, Effect))
    requires ValidPlugin(p)
    ensures var (p', e) := res;
            && ValidPlugin(p')
            && (code !in p.registry.pending ==> p' == p && e == NoOp)
            && (code in p.registry.pending ==>
                  e == OnPermissionResult(p.registry.pending[code], grantResults, p.settings, device.caps))
            && p'.settings == p.settings
            && DeliversAtMostOnce(p.registry, p'.registry, code)
            && (e.Resolves() <==> p'.registry.delivered != p.registry.delivered)
            && (code in p.registry.pending && NoneDenied(grantResults) &&
                CameraStepRuns(p, p.registry.pending[code], device) ==>
                  p'.numPics == device.imageCount &&
                  p'.videoUri == Some(Placeholder(device.newVideoUri, code)))
            && (!(code in p.registry.pending && NoneDenied(grantResults) &&
                  CameraStepRuns(p, p.registry.pending[code], device)) ==>
                  p'.numPics == p.numPics && p'.videoUri == p.videoUri)
  {
    match Get(p.registry, code)
    case None => (p, NoOp)
    case Some(req) =>
      if NoneDenied(grantResults) then RunCapture(p, req, device)
      else
        var e := ResolveFailure(CreateErrorObject(PermissionDenied, PermissionDeniedMessage));
        ApplyDeliversAtMostOnce(p.registry, Step(req, e));
        (p.(registry := Apply(p.registry, Step(req, e))), e)
  }

  /** A permission outcome for a pending request: a resolving effect
      delivers it and releases its code; anything else keeps it pending as it
      was. */
  lemma PermissionResultOutcome(p: Plugin, code: int, grantResults: seq<int>, device: Device)
    requires ValidPlugin(p) && code in p.registry.pending
    ensures var req := p.registry.pending[code];
            var (p', e) := PermissionResult(p, code, grantResults, device);
            && e == OnPermissionResult(req, grantResults, p.settings, device.caps)
            && (!e.Resolves() ==> p'.registry == p.registry)
            && (e.ResolveFailure? ==>
                  p'.registry == Registry(p.registry.pending - {code}, p.registry.nextCode,
                                          p.registry.delivered + [Delivery(code, Failed(e.error))]))
  {
    var req := p.registry.pending[code];
    var e := OnPermissionResult(req, grantResults, p.settings, device.caps);
    ApplyDeliversAtMostOnce(p.registry, Step(req, e));
    assert p.registry.pending[code := req] == p.registry.pending;
  }

  /** The decision of `checkForDuplicateImage`: when the image store grew by
      exactly two rows since the count saved before launch, delete the row
      whose _ID is one below the last row's; any other growth leaves the
      store alone. The `int` subtraction wraps. */
  function DuplicateCleanup(currentCount: int, savedCount: int, lastImageId: Int32): (c: Cleanup)
    ensures c.DeleteImage? <==> currentCount - savedCount == 2
    ensures c.DeleteImage? && lastImageId > -0x8000_0000 ==> c.id == lastImageId - 1
    ensures c.DeleteImage? && lastImageId == -0x8000_0000 ==> c.id == 0x7FFF_FFFF
    ensures !c.DeleteVideoFile?
  {
    if currentCount - savedCount == 2 then
      assert lastImageId > -0x8000_0000 ==> IsInt32(lastImageId - 1);
      DeleteImage(Wrap32(lastImageId - 1))
    else KeepStore
  }

  /** The duplicate check fires only after an image result, when the store
      grew by exactly two rows over the count saved at launch; as that count
      is a row count, the store then holds at least two rows. */
  lemma DuplicateCleanupHasLastRow(p: Plugin, code: int, resultCode: int, device: Device)
    requires ValidPlugin(p) && code in p.registry.pending
    ensures var c := ActivityResult(p, code, resultCode, device).2;
            c.DeleteImage? ==>
              && resultCode == ResultOk
              && p.registry.pending[code].action == ImageOrVideo && !device.produced.videoWritten
              && device.imageCount == p.numPics + 2
              && device.imageCount >= 2
  {
  }

  /** `CleanUpEmptyVideo` as written: on any cancelled or incomplete result,
      whatever file the plugin-wide `videoUri` points at is deleted —
      whichever request inserted it, and even when that request's video was
      already delivered to its caller. */
  function CancelCleanupAsWritten(videoUri: Option<Placeholder>): (c: Cleanup)
    ensures c.DeleteVideoFile? <==> videoUri.Some?
  {
    match videoUri
    case Some(ph) => DeleteVideoFile(ph.uri)
    case None => KeepStore
  }

  /** Cleanup restricted to the placeholder the cancelled request's own
      launch inserted. */
  function CancelCleanup(videoUri: Option<Placeholder>, req: Request): (c: Cleanup)
    ensures c.DeleteVideoFile? <==> videoUri.Some? && videoUri.value.owner == req.requestCode
    ensures c.DeleteVideoFile? ==> c.uri == videoUri.value.uri
    ensures !c.DeleteImage?
  {
    match videoUri
    case Some(ph) => if ph.owner == req.requestCode then DeleteVideoFile(ph.uri) else KeepStore
    case None => KeepStore
  }

  /** The URI `onVideoActivityResult` reads. */
  function VideoUriOf(videoUri: Option<Placeholder>): Option<string> {
    match videoUri
    case Some(ph) => Some(ph.uri)
    case None => None
  }

  /** `onActivityResult` for a pending request (the source dereferences the
      looked-up request unconditionally, so an unknown code is excluded): run
      the handler, carry out its effect, and report the content-store cleanup
      it triggers — the duplicate check after an image, the placeholder
      deletion after a cancelled or incomplete result. */
  function ActivityResult(p: Plugin, code: int, resultCode: int, device: Device): (res: (Plugin, Effect, Cleanup))
    requires ValidPlugin(p) && code in p.registry.pending
    ensures var (p', e, c) := res;
            && ValidPlugin(p')
            && p'.settings == p.settings && p'.numPics == p.numPics && p'.videoUri == p.videoUri
            && DeliversAtMostOnce(p.registry, p'.registry, code)
            && (e.Resolves() <==> p'.registry.delivered != p.registry.delivered)
            && (resultCode != ResultOk ==>
                  (c == CancelCleanupAsWritten(p.videoUri) <==> p.videoUri.None? || p.videoUri.value.owner == code))
            && (resultCode == ResultOk && p.registry.pending[code].action == ImageOrVideo &&
                !device.produced.videoWritten ==>
                  c == DuplicateCleanup(device.imageCount, p.numPics, device.lastImageId))
            && (resultCode == ResultOk &&
                !(p.registry.pending[code].action == ImageOrVideo && !device.produced.videoWritten) ==>
                  c == KeepStore)
  {
    var req := p.registry.pending[code];
    var step := OnActivityResult(req, resultCode, device.produced, VideoUriOf(p.videoUri), device.fallbackUri,
                                 device.caps);
    ActivityResultResolvesOrRelaunches(req, resultCode, device.produced, VideoUriOf(p.videoUri),
                                       device.fallbackUri, device.caps);
    ApplyDeliversAtMostOnce(p.registry, step);
    var cleanup :=
      if resultCode != ResultOk then CancelCleanup(p.videoUri, req)
      else if req.action == ImageOrVideo && !device.produced.videoWritten
      then DuplicateCleanup(device.imageCount, p.numPics, device.lastImageId)
      else KeepStore;
    (p.(registry := Apply(p.registry, step)), step.effect, cleanup)
  }

  /** An activity result for a pending request: its code is delivered with
      the handler's resolution, or the request stays pending with the items
      the handler accumulated. */
  lemma ActivityResultOutcome(p: Plugin, code: int, resultCode: int, device: Device)
    requires ValidPlugin(p) && code in p.registry.pending
    ensures var step := OnActivityResult(p.registry.pending[code], resultCode, device.produced,
                                         VideoUriOf(p.videoUri), device.fallbackUri, device.caps);
            var (p', e, _) := ActivityResult(p, code, resultCode, device);
            && e == step.effect
            && (e.ResolveSuccess? ==>
                  p'.registry == Registry(p.registry.pending - {code}, p.registry.nextCode,
                                          p.registry.delivered + [Delivery(code, Succeeded(e.results))]))
            && (e.ResolveFailure? ==>
                  p'.registry == Registry(p.registry.pending - {code}, p.registry.nextCode,
                                          p.registry.delivered + [Delivery(code, Failed(e.error))]))
            && (!e.Resolves() ==>
                  p'.registry == Registry(p.registry.pending[code := step.request], p.registry.nextCode,
                                          p.registry.delivered))
  {
    var req := p.registry.pending[code];
    var step := OnActivityResult(req, resultCode, device.produced, VideoUriOf(p.videoUri), device.fallbackUri,
                                 device.caps);
    ActivityResultResolvesOrRelaunches(req, resultCode, device.produced, VideoUriOf(p.videoUri),
                                       device.fallbackUri, device.caps);
    ApplyDeliversAtMostOnce(p.registry, step);
  }

  /** A recorded clip for a pending audio request: it is appended to the
      request, which is delivered with every clip once the limit is reached;
      below the limit the request stays pending under its code while the
      recorder restarts, or, when the restart fails, is delivered as a
      NotSupported failure that drops the clips. No store cleanup follows a
      clip. */
  lemma AudioClipOutcome(p: Plugin, code: int, device: Device)
    requires ValidPlugin(p) && code in p.registry.pending && p.registry.pending[code].action == Audio
    ensures var req := p.registry.pending[code];
            var next := req.(results := req.results + [device.produced.item]);
            var (p', e, c) := ActivityResult(p, code, ResultOk, device);
            && c == KeepStore
            && (|next.results| >= req.limit ==>
                  e == ResolveSuccess(next.results) &&
                  p'.registry == Registry(p.registry.pending - {code}, p.registry.nextCode,
                                          p.registry.delivered + [Delivery(code, Succeeded(next.results))]))
            && (|next.results| < req.limit ==> e == CaptureAudio(next, device.caps))
            && (|next.results| < req.limit && !e.Resolves() ==>
                  p'.registry == Registry(p.registry.pending[code := next], p.registry.nextCode,
                                          p.registry.delivered))
            && (|next.results| < req.limit && e.Resolves() ==>
                  p'.registry == Registry(p.registry.pending - {code}, p.registry.nextCode,
                                          p.registry.delivered + [Delivery(code, Failed(ErrorObject(20, NoAudioActivityMessage)))]))
  {
    ActivityResultOutcome(p, code, ResultOk, device);
  }

  /** The corrected cleanup never touches a placeholder another request
      inserted. */
  lemma CancelCleanupOwnPlaceholderOnly(p: Plugin, code: int, resultCode: int, device: Device)
    requires ValidPlugin(p) && code in p.registry.pending && resultCode != ResultOk
    ensures var c := ActivityResult(p, code, resultCode, device).2;
            c.DeleteVideoFile? ==> p.videoUri == Some(Placeholder(c.uri, code))
  {
  }

  /** Resolution is exactly once: for any sequence of events from a valid
      plugin, a code that has been delivered is not pending, so no later event
      can deliver it again. */
  lemma NoSecondResolution(p: Plugin, code: int, grantResults: seq<int>, device: Device)
    requires ValidPlugin(p) && WasDelivered(p.registry, code)
    ensures code !in p.registry.pending
    ensures PermissionResult(p, code, grantResults, device) == (p, NoOp)
  {
    DeliveredExactlyOnce(p.registry, code);
  }
}

=== FILE: registry.dfy ===
/** The registry of pending requests, as the plugin relies on it: a map from
    request code to request, a counter that hands out fresh codes, and the log
    of resolutions delivered to callers. The registry class itself is not part
    of this model; these are the behaviours the plugin assumes of it — a new
    request gets a code never used before, lookup of an unknown code yields
    nothing, and resolving removes the entry and delivers exactly one result to
    its caller. */
module PendingRequests {
  import opened Wrappers
  import opened Media
  import opened Requests

  /** What the caller of a request finally receives. */
  datatype Resolution = Succeeded(results: seq<MediaFile>) | Failed(error: ErrorObject)

  /** One invocation of a caller's callback. */
  datatype Delivery = Delivery(requestCode: int, resolution: Resolution)

  datatype Registry = Registry(pending: map<int, Request>, nextCode: int, delivered: seq<Delivery>)

  /** The options a new request is created from. */
  datatype RequestOptions = RequestOptions(limit: int, duration: int, quality: int)

  /** Entries are stored under their own code; every code used is below the
      counter; a delivered code is no longer pending and was delivered only
      once; and every pending request is well-formed. */
  ghost predicate Valid(r: Registry) {
    && r.nextCode >= 0
    && (forall c :: c in r.pending ==> r.pending[c].requestCode == c && 0 <= c < r.nextCode)
    && (forall c :: c in r.pending ==> WellFormed(r.pending[c]))
    && (forall i :: 0 <= i < |r.delivered| ==>
          0 <= r.delivered[i].requestCode < r.nextCode && r.delivered[i].requestCode !in r.pending)
    && (forall i, j :: 0 <= i < j < |r.delivered| ==> r.delivered[i].requestCode != r.delivered[j].requestCode)
  }

  /** The code has been delivered to its caller. */
  predicate WasDelivered(r: Registry, code: int) {
    exists i :: 0 <= i < |r.delivered| && r.delivered[i].requestCode == code
  }

  function Empty(): (r: Registry)
    ensures Valid(r) && r.pending == map[] && r.delivered == []
  {
    Registry(map[], 0, [])
  }

  /** `createRequest`: store a new request with no results under a code that
      is neither pending nor delivered. */
  function CreateRequest(r: Registry, action: Action, options: RequestOptions): (res: (Registry, Request))
    requires Valid(r)
    ensures var (r', req) := res;
            && Valid(r')
            && req.requestCode !in r.pending && !WasDelivered(r, req.requestCode)
            && req.action == action && req.results == []
            && req.limit == options.limit && req.duration == options.duration && req.quality == options.quality
            && r'.pending == r.pending[req.requestCode := req]
            && r'.delivered == r.delivered
  {
    var req := Request(r.nextCode, action, options.limit, options.duration, options.quality, []);
    (r.(pending := r.pending[r.nextCode := req], nextCode := r.nextCode + 1), req)
  }

  /** `get`: the pending request with this code, if any. */
  function Get(r: Registry, code: int): (req: Option<Request>)
    ensures req.Some? <==> code in r.pending
    ensures req.Some? ==> req.value == r.pending[code]
  {
    if code in r.pending then Some(r.pending[code]) else None
  }

  /** `resolveWithSuccess` / `resolveWithFailure`: deliver one result to the
      caller and release the code. */
  function Resolve(r: Registry, code: int, resolution: Resolution): (r': Registry)
    requires Valid(r) && code in r.pending
    ensures Valid(r')
    ensures r'.pending == r.pending - {code} && r'.nextCode == r.nextCode
    ensures r'.delivered == r.delivered + [Delivery(code, resolution)]
  {
    Registry(r.pending - {code}, r.nextCode, r.delivered + [Delivery(code, resolution)])
  }

  /** Keep a request, with whatever it accumulated, pending under its code. */
  function Store(r: Registry, req: Request): (r': Registry)
    requires Valid(r) && req.requestCode in r.pending && WellFormed(req)
    ensures Valid(r')
    ensures r'.pending == r.pending[req.requestCode := req] && r'.delivered == r.delivered
    ensures r'.pending.Keys == r.pending.Keys
  {
    r.(pending := r.pending[req.requestCode := req])
  }

  /** Carry out a handler's step: a resolving effect delivers and releases,
      anything else keeps the request pending. */
  function Apply(r: Registry, step: Step): (r': Registry)
    requires Valid(r) && step.request.requestCode in r.pending
    requires !step.effect.Resolves() ==> WellFormed(step.request)
    ensures Valid(r') && r'.nextCode == r.nextCode
    ensures step.effect.Resolves() <==> |r'.delivered| == |r.delivered| + 1
    ensures step.effect.Resolves() ==> step.request.requestCode !in r'.pending
    ensures !step.effect.Resolves() ==>
              r'.delivered == r.delivered && r'.pending == r.pending[step.request.requestCode := step.request]
  {
    match step.effect
    case ResolveSuccess(results) => Resolve(r, step.request.requestCode, Succeeded(results))
    case ResolveFailure(error) => Resolve(r, step.request.requestCode, Failed(error))
    case _ => Store(r, step.request)
  }

  /** Applying a step keeps the registry valid and delivers at most one
      result, and one exactly when the effect resolves; the request's code
      then stops being pending. No other entry changes. */
  lemma ApplyDeliversAtMostOnce(r: Registry, step: Step)
    requires Valid(r) && step.request.requestCode in r.pending
    requires !step.effect.Resolves() ==> WellFormed(step.request)
    ensures var r' := Apply(r, step);
            var code := step.request.requestCode;
            && Valid(r')
            && r'.nextCode == r.nextCode
            && (step.effect.Resolves() ==>
                  |r'.delivered| == |r.delivered| + 1 &&
                  r'.delivered[..|r.delivered|] == r.delivered &&
                  r'.delivered[|r.delivered|].requestCode == code &&
                  code !in r'.pending && !WasDelivered(r, code))
            && (step.effect.ResolveSuccess? ==>
                  r' == Registry(r.pending - {code}, r.nextCode,
                                 r.delivered + [Delivery(code, Succeeded(step.effect.results))]))
            && (step.effect.ResolveFailure? ==>
                  r' == Registry(r.pending - {code}, r.nextCode,
                                 r.delivered + [Delivery(code, Failed(step.effect.error))]))
            && (!step.effect.Resolves() ==>
                  r' == Registry(r.pending[code := step.request], r.nextCode, r.delivered))
            && (forall c :: c != code ==> (c in r'.pending <==> c in r.pending))
            && (forall c :: c != code && c in r.pending ==> r'.pending[c] == r.pending[c])
  {
    var code := step.request.requestCode;
    if step.effect.Resolves() {
      assert !WasDelivered(r, code) by {
        forall i | 0 <= i < |r.delivered|
          ensures r.delivered[i].requestCode != code
        {
        }
      }
    }
  }

  /** A code once delivered is never delivered again, and is never pending. */
  lemma DeliveredExactlyOnce(r: Registry, code: int)
    requires Valid(r) && WasDelivered(r, code)
    ensures code !in r.pending
    ensures |set i | 0 <= i < |r.delivered| && r.delivered[i].requestCode == code| == 1
  {
    var i :| 0 <= i < |r.delivered| && r.delivered[i].requestCode == code;
    var s := set j | 0 <= j < |r.delivered| && r.delivered[j].requestCode == code;
    assert s == {i};
  }
}

=== FILE: requests.dfy ===
/** One capture request and the handlers that move it along. Each handler is a
    pure step: it takes the request and what the platform reported, and returns
    the request with any newly accumulated item together with the single effect
    the plugin performs next — resolve with success, resolve with failure, ask
    for permissions, launch an external activity, or nothing. */
module Requests {
  import opened Wrappers
  import opened Media
  import opened Permissions

  /** What a request captures (the action codes 0 and 1 of the plugin). */
  datatype Action = Audio | ImageOrVideo

  /** A pending capture: its correlation code, what it captures, how many items
      it wants, the video hints passed to the camera, and the items so far. */
  datatype Request = Request(
    requestCode: int,
    action: Action,
    limit: int,
    duration: int,
    quality: int,
    results: seq<MediaFile>)

  /** The error codes the plugin reports. */
  datatype ErrorCode = InternalErr | NoMediaFiles | PermissionDenied | NotSupported {
    function Value(): int {
      match this
      case InternalErr => 0
      case NoMediaFiles => 3
      case PermissionDenied => 4
      case NotSupported => 20
    }
  }

  /** Reads an error code back from the number the caller receives. */
  function ErrorCodeOf(value: int): (c: Option<ErrorCode>)
    ensures c.Some? ==> c.value.Value() == value
    ensures c.None? <==> value !in {0, 3, 4, 20}
  {
    if value == 0 then Some(InternalErr)
    else if value == 3 then Some(NoMediaFiles)
    else if value == 4 then Some(PermissionDenied)
    else if value == 20 then Some(NotSupported)
    else None
  }

  /** The failure payload: a numeric code and a message. */
  datatype ErrorObject = ErrorObject(code: int, message: string)

  /** `createErrorObject`: the payload carries exactly the given code and
      message, and the code reads back as the error it was made from. */
  function CreateErrorObject(code: ErrorCode, message: string): (e: ErrorObject)
    ensures ErrorCodeOf(e.code) == Some(code)
    ensures e.message == message
  {
    ErrorObject(code.Value(), message)
  }

  /** Activity.RESULT_OK and Activity.RESULT_CANCELED. */
  const ResultOk: int := -1
  const ResultCanceled: int := 0
  /** PackageManager.PERMISSION_DENIED. */
  const PermissionDeniedResult: int := -1

  const NoAudioActivityMessage: string := "No Activity found to handle Audio Capture."
  const PermissionDeniedMessage: string := "Permission denied."
  const CanceledMessage: string := "Canceled."
  const IncompleteMessage: string := "Did not complete!"
  const NullDataMessage: string := "Error: data is null"
  const NoCameraActivityMessage: string := "No Activity found to handle Image or Video Capture."
  const LaunchFailedMessage: string := "Failed to start Image or Video Capture."

  /** The external activity a launch starts: the sound recorder, the still
      camera, the video camera, or a chooser offering both cameras. */
  datatype Intent = RecordSound | ImageCapture | VideoCapture | ImageOrVideoChooser

  /** What starting the camera activity does: it starts, no activity answers
      the intent, or setting it up throws some other exception. */
  datatype LaunchOutcome = Launched | NoActivityFound | SetupFailed

  datatype Effect =
    | ResolveSuccess(results: seq<MediaFile>)
    | ResolveFailure(error: ErrorObject)
    | RequestPermissions(requestCode: int, permissions: seq<Permission>)
    | Launch(requestCode: int, intent: Intent)
    | NoOp
  {
    predicate Resolves() {
      ResolveSuccess? || ResolveFailure?
    }
  }

  /** The request after a handler ran, and what the plugin does next. */
  datatype Step = Step(request: Request, effect: Effect)

  /** What the device answers when a capture is (re)started: the permissions
      held, whether an activity records sound, and what launching the camera
      does. */
  datatype Capabilities = Capabilities(
    granted: set<Permission>,
    recorderFound: bool,
    cameraLaunch: LaunchOutcome)

  /** Plugin-wide settings: whether the manifest declares CAMERA, and the
      "image" and "video" flags of the latest `execute` call. */
  datatype Settings = Settings(cameraInManifest: bool, multipleImageReq: bool, multipleVideoReq: bool)

  /** A request the registry can hold: image/video requests resolve at their
      first item so they hold none; audio requests hold fewer than their limit. */
  predicate WellFormed(req: Request) {
    |req.results| == 0 || (req.action == Audio && |req.results| < req.limit)
  }

  function RequiredPermissions(action: Action, cameraInManifest: bool): seq<Permission> {
    match action
    case Audio => StoragePermissions
    case ImageOrVideo => CameraPermissions(cameraInManifest)
  }

  /** Read and write storage are always required; CAMERA exactly for image/video
      capture when the manifest declares it. */
  lemma RequiredPermissionSet(action: Action, cameraInManifest: bool)
    ensures (set p | p in RequiredPermissions(action, cameraInManifest)) ==
            {ReadExternalStorage, WriteExternalStorage} +
            (if action == ImageOrVideo && cameraInManifest then {Camera} else {})
  {
    var s := set p | p in RequiredPermissions(action, cameraInManifest);
    assert ReadExternalStorage in s && WriteExternalStorage in s;
    if action == ImageOrVideo && cameraInManifest {
      assert Camera in s;
    }
  }

  /** `isMissingPermissions`, with its collecting loop: it reports missing
      permissions exactly when some permission of `ps` is not held, and its
      prompt is then the one `PermissionPrompt` defines. */
  method IsMissingPermissions(req: Request, ps: seq<Permission>, granted: set<Permission>)
    returns (isMissing: bool, prompt: Effect)
    ensures isMissing <==> exists p :: p in ps && p !in granted
    ensures isMissing <==> PermissionPrompt(req, ps, granted).Some?
    ensures isMissing ==> prompt == PermissionPrompt(req, ps, granted).value
    ensures !isMissing ==> prompt == NoOp
  {
    var missing := CollectMissing(ps, granted);
    isMissing := |missing| > 0;
    if isMissing {
      prompt := RequestPermissions(req.requestCode, missing);
    } else {
      prompt := NoOp;
    }
  }

  /** The permission check that opens `captureAudio` and `captureImageOrVideo`,
      as a value: the prompt to issue, if any. */
  function PermissionPrompt(req: Request, ps: seq<Permission>, granted: set<Permission>): (e: Option<Effect>)
    ensures e.None? <==> AllHeld(ps, granted)
    ensures e.Some? ==> e.value == RequestPermissions(req.requestCode, MissingPermissions(ps, granted))
  {
    var missing := MissingPermissions(ps, granted);
    if |missing| > 0 then Some(RequestPermissions(req.requestCode, missing)) else None
  }

  /** `captureAudio`: ask for missing storage permissions, else start the sound
      recorder, else fail with NotSupported when no activity records sound. */
  function CaptureAudio(req: Request, caps: Capabilities): (e: Effect)
    ensures e.RequestPermissions? <==> !AllHeld(StoragePermissions, caps.granted)
    ensures e.RequestPermissions? ==>
              e == RequestPermissions(req.requestCode, MissingPermissions(StoragePermissions, caps.granted))
    ensures e.Launch? <==> AllHeld(StoragePermissions, caps.granted) && caps.recorderFound
    ensures e.Launch? ==> e == Launch(req.requestCode, RecordSound)
    ensures e.ResolveFailure? <==> AllHeld(StoragePermissions, caps.granted) && !caps.recorderFound
    ensures e.ResolveFailure? ==> e.error == ErrorObject(20, NoAudioActivityMessage)
    ensures !e.ResolveSuccess? && !e.NoOp?
  {
    match PermissionPrompt(req, StoragePermissions, caps.granted)
    case Some(prompt) => prompt
    case None =>
      if caps.recorderFound then Launch(req.requestCode, RecordSound)
      else ResolveFailure(CreateErrorObject(NotSupported, NoAudioActivityMessage))
  }

  /** The activity `captureImageOrVideo` starts: the still camera when the
      "image" flag is set, else the video camera when the "video" flag is set,
      else a chooser between the two. */
  function ChooseIntent(multipleImageReq: bool, multipleVideoReq: bool): (i: Intent)
    ensures i == ImageCapture <==> multipleImageReq
    ensures i == VideoCapture <==> !multipleImageReq && multipleVideoReq
    ensures i == ImageOrVideoChooser <==> !multipleImageReq && !multipleVideoReq
    ensures i != RecordSound
  {
    if multipleImageReq then ImageCapture
    else if multipleVideoReq then VideoCapture
    else ImageOrVideoChooser
  }

  /** `captureImageOrVideo` as written: any exception while setting up or
      starting the camera is caught and only logged, so the request is left
      pending with nothing further happening. */
  function CaptureImageOrVideoAsWritten(req: Request, settings: Settings, caps: Capabilities): (e: Effect)
    ensures e.NoOp? <==> AllHeld(CameraPermissions(settings.cameraInManifest), caps.granted) &&
                         caps.cameraLaunch != Launched
  {
    match PermissionPrompt(req, CameraPermissions(settings.cameraInManifest), caps.granted)
    case Some(prompt) => prompt
    case None =>
      if caps.cameraLaunch == Launched then
        Launch(req.requestCode, ChooseIntent(settings.multipleImageReq, settings.multipleVideoReq))
      else NoOp
  }

  /** Exhibits the as-written hang: all permissions held, no camera activity,
      and the request gets neither a launch nor a resolution. */
  lemma CameraLaunchFailureHangs()
    ensures var req := Request(7, ImageOrVideo, 1, 0, 1, []);
            var caps := Capabilities({ReadExternalStorage, WriteExternalStorage}, true, NoActivityFound);
            CaptureImageOrVideoAsWritten(req, Settings(false, true, false), caps) == NoOp
  {
  }

  /** `captureImageOrVideo` with its failure path completed the way
      `captureAudio` does it: a missing camera activity resolves with
      NotSupported and any other setup exception with InternalErr. Every
      outcome is a prompt, a launch or a resolution. */
  function CaptureImageOrVideo(req: Request, settings: Settings, caps: Capabilities): (e: Effect)
    ensures e.RequestPermissions? <==> !AllHeld(CameraPermissions(settings.cameraInManifest), caps.granted)
    ensures e.RequestPermissions? ==>
              e == RequestPermissions(req.requestCode,
                                      MissingPermissions(CameraPermissions(settings.cameraInManifest), caps.granted))
    ensures e.Launch? <==> AllHeld(CameraPermissions(settings.cameraInManifest), caps.granted) &&
                           caps.cameraLaunch == Launched
    ensures e.Launch? ==>
              e == Launch(req.requestCode, ChooseIntent(settings.multipleImageReq, settings.multipleVideoReq))
    ensures e.ResolveFailure? <==> AllHeld(CameraPermissions(settings.cameraInManifest), caps.granted) &&
                                   caps.cameraLaunch != Launched
    ensures e.ResolveFailure? && caps.cameraLaunch == NoActivityFound ==>
              ErrorCodeOf(e.error.code) == Some(NotSupported) && e.error.message == NoCameraActivityMessage
    ensures e.ResolveFailure? && caps.cameraLaunch == SetupFailed ==>
              ErrorCodeOf(e.error.code) == Some(InternalErr) && e.error.message == LaunchFailedMessage
    ensures !e.ResolveSuccess? && !e.NoOp?
  {
    match PermissionPrompt(req, CameraPermissions(settings.cameraInManifest), caps.granted)
    case Some(prompt) => prompt
    case None =>
      match caps.cameraLaunch
      case Launched => Launch(req.requestCode, ChooseIntent(settings.multipleImageReq, settings.multipleVideoReq))
      case NoActivityFound => ResolveFailure(CreateErrorObject(NotSupported, NoCameraActivityMessage))
      case SetupFailed => ResolveFailure(CreateErrorObject(InternalErr, LaunchFailedMessage))
  }

  /** The corrected step agrees with the as-written one wherever the latter
      does something. */
  lemma CaptureImageOrVideoRefines(req: Request, settings: Settings, caps: Capabilities)
    ensures var w := CaptureImageOrVideoAsWritten(req, settings, caps);
            !w.NoOp? ==> CaptureImageOrVideo(req, settings, caps) == w
  {
  }

  /** The camera step as written does nothing: every required permission is
      held, yet the camera cannot be started. */
  predicate CameraHangs(req: Request, settings: Settings, caps: Capabilities) {
    && req.action == ImageOrVideo
    && AllHeld(CameraPermissions(settings.cameraInManifest), caps.granted)
    && caps.cameraLaunch != Launched
  }

  /** A corrected effect `e` stands for the effect `w` of the code as written:
      the same wherever the code does something, and a failure where it does
      nothing. */
  predicate MatchesAsWritten(e: Effect, w: Effect) {
    && (!w.NoOp? ==> e == w)
    && (w.NoOp? ==> e.ResolveFailure?)
  }

  /** `executeRequest` as written: restart the capture step the request's
      action names, with the camera step's hang. */
  function ExecuteRequestAsWritten(req: Request, settings: Settings, caps: Capabilities): (e: Effect)
    ensures e.NoOp? <==> CameraHangs(req, settings, caps)
    ensures !e.ResolveSuccess?
  {
    match req.action
    case Audio => CaptureAudio(req, caps)
    case ImageOrVideo => CaptureImageOrVideoAsWritten(req, settings, caps)
  }

  /** `executeRequest` over the corrected camera step. It prompts exactly when
      a permission the action requires is missing, launches only under the
      request's own code with the activity its action calls for, and differs
      from the code as written only where that hangs, failing instead. */
  function ExecuteRequest(req: Request, settings: Settings, caps: Capabilities): (e: Effect)
    ensures e.RequestPermissions? <==> !AllHeld(RequiredPermissions(req.action, settings.cameraInManifest), caps.granted)
    ensures e.Launch? ==> e.requestCode == req.requestCode && (e.intent == RecordSound <==> req.action == Audio)
    ensures MatchesAsWritten(e, ExecuteRequestAsWritten(req, settings, caps))
    ensures e.ResolveFailure? && !CameraHangs(req, settings, caps) ==> e.error == ErrorObject(20, NoAudioActivityMessage)
  {
    match req.action
    case Audio => CaptureAudio(req, caps)
    case ImageOrVideo => CaptureImageOrVideo(req, settings, caps)
  }

  /** A (re)started capture never resolves with success, and starts an
      activity only when every permission its action requires is held; a
      prompt names exactly the missing ones. The corrected step always does
      something; the step as written does nothing exactly when the camera
      hangs, and is otherwise gated the same way. */
  lemma ExecuteRequestGated(req: Request, settings: Settings, caps: Capabilities)
    ensures var e := ExecuteRequest(req, settings, caps);
            && !e.ResolveSuccess? && !e.NoOp?
            && (e.Launch? ==> AllHeld(RequiredPermissions(req.action, settings.cameraInManifest), caps.granted))
            && (e.RequestPermissions? ==>
                  e.requestCode == req.requestCode &&
                  e.permissions == MissingPermissions(RequiredPermissions(req.action, settings.cameraInManifest),
                                                      caps.granted) &&
                  e.permissions != [])
    ensures var w := ExecuteRequestAsWritten(req, settings, caps);
            && !w.ResolveSuccess?
            && (w.NoOp? <==> CameraHangs(req, settings, caps))
            && (w.Launch? ==> AllHeld(RequiredPermissions(req.action, settings.cameraInManifest), caps.granted))
            && (w.RequestPermissions? ==>
                  w == RequestPermissions(req.requestCode,
                                          MissingPermissions(RequiredPermissions(req.action, settings.cameraInManifest),
                                                             caps.granted)))
  {
  }

  /** No entry of the permission outcome is PERMISSION_DENIED. */
  predicate NoneDenied(grantResults: seq<int>) {
    forall i :: 0 <= i < |grantResults| ==> grantResults[i] != PermissionDeniedResult
  }

  /** The scan of `onRequestPermissionResult`, stopping at the first denial. */
  method AllGranted(grantResults: seq<int>) returns (success: bool)
    ensures success <==> NoneDenied(grantResults)
    ensures success <==> !exists i :: 0 <= i < |grantResults| && grantResults[i] == PermissionDeniedResult
  {
    success := true;
    var i := 0;
    while i < |grantResults|
      invariant 0 <= i <= |grantResults|
      invariant success
      invariant forall j :: 0 <= j < i ==> grantResults[j] != PermissionDeniedResult
    {
      if grantResults[i] == PermissionDeniedResult {
        success := false;
        break;
      }
      i := i + 1;
    }
  }

  /** `onRequestPermissionResult` for a known request, as written: a single
      denial fails the whole request with PermissionDenied; otherwise, an empty
      outcome included, the request's capture step runs again. */
  function OnPermissionResultAsWritten(req: Request, grantResults: seq<int>, settings: Settings, caps: Capabilities)
    : (e: Effect)
    ensures (exists i :: 0 <= i < |grantResults| && grantResults[i] == PermissionDeniedResult) ==>
              e == ResolveFailure(ErrorObject(4, PermissionDeniedMessage))
    ensures (forall i :: 0 <= i < |grantResults| ==> grantResults[i] != PermissionDeniedResult) ==>
              e == ExecuteRequestAsWritten(req, settings, caps)
  {
    if NoneDenied(grantResults) then ExecuteRequestAsWritten(req, settings, caps)
    else ResolveFailure(CreateErrorObject(PermissionDenied, PermissionDeniedMessage))
  }

  /** `onRequestPermissionResult` over the corrected capture step: the same
      decision, and the same effect as the code as written except that a
      hanging camera step fails the request. */
  function OnPermissionResult(req: Request, grantResults: seq<int>, settings: Settings, caps: Capabilities): (e: Effect)
    ensures (exists i :: 0 <= i < |grantResults| && grantResults[i] == PermissionDeniedResult) ==>
              e == ResolveFailure(ErrorObject(4, PermissionDeniedMessage))
    ensures (forall i :: 0 <= i < |grantResults| ==> grantResults[i] != PermissionDeniedResult) ==>
              e == ExecuteRequest(req, settings, caps)
    ensures MatchesAsWritten(e, OnPermissionResultAsWritten(req, grantResults, settings, caps))
    ensures !e.NoOp?
  {
    if NoneDenied(grantResults) then ExecuteRequest(req, settings, caps)
    else ResolveFailure(CreateErrorObject(PermissionDenied, PermissionDeniedMessage))
  }

  /** Permission outcomes fail closed: an activity is started only when no
      entry was denied and every required permission is actually held. */
  lemma PermissionOutcomeFailsClosed(req: Request, grantResults: seq<int>, settings: Settings, caps: Capabilities)
    ensures var e := OnPermissionResult(req, grantResults, settings, caps);
            e.Launch? ==>
              NoneDenied(grantResults) &&
              AllHeld(RequiredPermissions(req.action, settings.cameraInManifest), caps.granted)
  {
    ExecuteRequestGated(req, settings, caps);
  }

  /** The request with one more item at the end of its results. */
  function Accumulate(req: Request, item: MediaFile): Request {
    req.(results := req.results + [item])
  }

  /** `onAudioActivityResult`: append the clip; resolve with every clip once
      the limit is reached, else record another. */
  function OnAudioActivityResult(req: Request, item: MediaFile, caps: Capabilities): (s: Step)
    ensures s.request.results == req.results + [item]
    ensures s.request == req.(results := s.request.results)
    ensures s.effect.ResolveSuccess? <==> |req.results| + 1 >= req.limit
    ensures s.effect.ResolveSuccess? ==> s.effect.results == s.request.results
    ensures !s.effect.ResolveSuccess? ==> s.effect == CaptureAudio(s.request, caps)
  {
    var next := Accumulate(req, item);
    if |next.results| >= next.limit then Step(next, ResolveSuccess(next.results))
    else Step(next, CaptureAudio(next, caps))
  }

  /** The limit bounds audio accumulation: a well-formed audio request
      resolves with success holding exactly max(limit, 1) clips, and
      otherwise stays well-formed. */
  lemma AudioAccumulationBound(req: Request, item: MediaFile, caps: Capabilities)
    requires WellFormed(req) && req.action == Audio
    ensures var s := OnAudioActivityResult(req, item, caps);
            && (s.effect.ResolveSuccess? ==> |s.effect.results| == if req.limit < 1 then 1 else req.limit)
            && (!s.effect.ResolveSuccess? ==> WellFormed(s.request))
  {
  }

  /** The image half of `onImageActivityResult`: append the image and resolve
      at once, whatever the limit. */
  function OnImageActivityResult(req: Request, item: MediaFile): (s: Step)
    ensures s.request.results == req.results + [item]
    ensures s.request == req.(results := s.request.results)
    ensures s.effect == ResolveSuccess(req.results + [item])
  {
    var next := Accumulate(req, item);
    Step(next, ResolveSuccess(next.results))
  }

  /** `onVideoActivityResult`: the plugin-wide video URI, falling back to a
      file in the cache directory, is tested for null; then the item is
      appended and the request resolved, and the multi-shot relaunch is
      commented out. The item is an input of its own: the source builds it
      from the plugin-wide video URI, not from the fallback. */
  function OnVideoActivityResult(req: Request, videoUri: Option<string>, fallbackUri: string, item: MediaFile)
    : (s: Step)
    ensures s.effect.ResolveSuccess? ==>
              s.request == req.(results := req.results + [item]) && s.effect.results == s.request.results
    ensures s.effect.ResolveFailure? ==>
              s.request == req && s.effect.error == ErrorObject(3, NullDataMessage)
    ensures s.effect.Resolves()
  {
    var data := if videoUri.Some? then videoUri else Some(fallbackUri);
    if data.None? then Step(req, ResolveFailure(CreateErrorObject(NoMediaFiles, NullDataMessage)))
    else
      var next := Accumulate(req, item);
      Step(next, ResolveSuccess(next.results))
  }

  /** The fallback makes the null test dead: a video result always appends
      one item and resolves with success, whatever the limit. With no video
      URI the source would instead throw when it builds the item from that
      null URI; the plugin never gets there, because the check that routes a
      result to this handler queries the URI "null", gets no cursor, and
      throws when it closes that missing cursor. */
  lemma VideoResultAlwaysSucceeds(req: Request, videoUri: Option<string>, fallbackUri: string, item: MediaFile)
    ensures var s := OnVideoActivityResult(req, videoUri, fallbackUri, item);
            && s.request == req.(results := req.results + [item])
            && s.effect == ResolveSuccess(req.results + [item])
  {
  }

  /** The CANCELED and "anything else" branches of `onActivityResult`:
      accumulated items resolve with success; with none, the request fails with
      NoMediaFiles, saying "Canceled." only for RESULT_CANCELED. */
  function OnIncompleteResult(req: Request, resultCode: int): (e: Effect)
    requires resultCode != ResultOk
    ensures e.Resolves()
    ensures e.ResolveSuccess? <==> |req.results| > 0
    ensures e.ResolveSuccess? ==> e.results == req.results
    ensures e.ResolveFailure? ==>
              ErrorCodeOf(e.error.code) == Some(NoMediaFiles) &&
              (e.error.message == CanceledMessage <==> resultCode == ResultCanceled)
    ensures e.ResolveFailure? ==>
              e.error == ErrorObject(3, if resultCode == ResultCanceled then CanceledMessage else IncompleteMessage)
  {
    if resultCode == ResultCanceled then
      if |req.results| > 0 then ResolveSuccess(req.results)
      else ResolveFailure(CreateErrorObject(NoMediaFiles, CanceledMessage))
    else
      if |req.results| > 0 then ResolveSuccess(req.results)
      else ResolveFailure(CreateErrorObject(NoMediaFiles, IncompleteMessage))
  }

  /** What the capture activity handed back with RESULT_OK: the descriptor of
      the produced item, and (for image/video) whether the video placeholder
      now holds a file. */
  datatype Produced = Produced(item: MediaFile, videoWritten: bool)

  /** `onActivityResult` for a known request, with the thread-pool hop taken as
      atomic. */
  function OnActivityResult(req: Request, resultCode: int, produced: Produced, videoUri: Option<string>,
                            fallbackUri: string, caps: Capabilities): (s: Step)
    ensures resultCode != ResultOk ==> s == Step(req, OnIncompleteResult(req, resultCode))
    ensures resultCode == ResultOk ==> s.request == req.(results := req.results + [produced.item])
  {
    if resultCode == ResultOk then
      match req.action
      case Audio => OnAudioActivityResult(req, produced.item, caps)
      case ImageOrVideo =>
        if produced.videoWritten then OnVideoActivityResult(req, videoUri, fallbackUri, produced.item)
        else OnImageActivityResult(req, produced.item)
    else
      Step(req, OnIncompleteResult(req, resultCode))
  }

  /** A result other than RESULT_OK resolves the request, with success
      carrying every accumulated item when there is one; an image or video
      resolves with success at once; an audio clip resolves with success when
      the limit is reached and otherwise restarts the recorder, leaving a
      well-formed request. Items are only ever appended. */
  lemma ActivityResultResolvesOrRelaunches(
    req: Request, resultCode: int, produced: Produced, videoUri: Option<string>, fallbackUri: string,
    caps: Capabilities)
    requires WellFormed(req)
    ensures var s := OnActivityResult(req, resultCode, produced, videoUri, fallbackUri, caps);
            && (resultCode != ResultOk ==>
                  s.effect.Resolves() && (s.effect.ResolveFailure? <==> req.results == []))
            && (s.effect.ResolveSuccess? ==> s.effect.results == s.request.results && |s.effect.results| > 0)
            && (resultCode == ResultOk && req.action == ImageOrVideo ==>
                  s.effect == ResolveSuccess(s.request.results))
            && (resultCode == ResultOk && req.action == Audio && !s.effect.ResolveSuccess? ==>
                  s.effect == CaptureAudio(s.request, caps) && WellFormed(s.request))
            && req.results <= s.request.results
  {
    var s := OnActivityResult(req, resultCode, produced, videoUri, fallbackUri, caps);
    if resultCode == ResultOk {
      match req.action
      case Audio => AudioAccumulationBound(req, produced.item, caps);
      case ImageOrVideo =>
        if produced.videoWritten {
          VideoResultAlwaysSucceeds(req, videoUri, fallbackUri, produced.item);
        }
    }
  }
}

=== FILE: scenarios.dfy ===
/** Whole-plugin runs: concrete event sequences driven through `Execute`,
    `PermissionResult` and `ActivityResult`, with what the caller receives. */
module Scenarios {
  import opened Wrappers
  import opened JavaLang
  import opened Media
  import opened Permissions
  import opened Requests
  import opened PendingRequests
  import opened Plugin

  const Storage: set<Permission> := {ReadExternalStorage, WriteExternalStorage}
  const NoProbe: Probe := Probe(None, 0, 0, None)
  const One: RequestOptions := RequestOptions(1, 0, 1)

  /** The `args` of a capture call: one options object with both flags. */
  function Flags(image: string, video: string): seq<Arg> {
    [Object(map["image" := image, "video" := video], "{}")]
  }

  const Clip: MediaFile := MediaFile("clip.3gp", "file:///clip.3gp", None, Audio3gpp, 1, 100)

  const Photo: MediaFile := MediaFile("p.jpg", "file:///p.jpg", None, ImageJpeg, 1, 100)
  const Movie: MediaFile := MediaFile("m.mp4", "file:///m.mp4", None, VideoMp4, 1, 100)
  const MovieUri: string := "content://media/external/video/media/42"

  /** A device answering every event the same way. */
  function Phone(granted: set<Permission>, launch: LaunchOutcome, item: MediaFile, videoWritten: bool): Device {
    Device(Capabilities(granted, true, launch), 3, 3, MovieUri, Produced(item, videoWritten), "")
  }

  /** Both storage permissions held: nothing is missing for either action. */
  lemma StorageHeld()
    ensures CameraPermissions(false) == StoragePermissions
    ensures AllHeld(StoragePermissions, Storage) && MissingPermissions(StoragePermissions, Storage) == []
  {
    assert StoragePermissions + [] == StoragePermissions;
  }

  /** `execute` for a capture action reads both flags into the settings and
      starts the request. */
  lemma FlagsRead(p: Plugin, action: string, image: string, video: string, options: RequestOptions,
                  device: Device)
    requires ValidPlugin(p) && (action == "captureAudio" || action == "captureImage")
    ensures Execute(p, action, Flags(image, video), options, NoProbe, device) ==
            Start(p.(settings := Settings(p.settings.cameraInManifest, ParseBoolean(image), ParseBoolean(video))),
                  if action == "captureAudio" then Audio else ImageOrVideo, options, device)
  {
    var fields := map["image" := image, "video" := video];
    assert OptFirstObject(Flags(image, video)) == Some(fields);
    assert fields["image"] == image && fields["video"] == video;
  }

  /** The corrected launch step never leaves a request hanging: with every
      permission held but no camera activity, the caller receives
      NotSupported at once. */
  lemma CameraMissingResolves()
    ensures var dev := Phone(Storage, NoActivityFound, Photo, false);
            var (p1, reply) := Execute(Initialize(false), "captureImage", Flags("true", "false"), One, NoProbe, dev);
            && reply == Started(0, ResolveFailure(ErrorObject(20, NoCameraActivityMessage)))
            && p1.registry.delivered == [Delivery(0, Failed(ErrorObject(20, NoCameraActivityMessage)))]
            && p1.registry.pending == map[]
  {
    var dev := Phone(Storage, NoActivityFound, Photo, false);
    var p0 := Initialize(false);
    FlagsRead(p0, "captureImage", "true", "false", One, dev);
    ParseBooleanExamples();
    var p0' := p0.(settings := Settings(false, true, false));
    NoCameraActivityFails();
    StartOutcome(p0', ImageOrVideo, One, dev);
  }

  lemma NoCameraActivityFails()
    ensures ExecuteRequest(Request(0, ImageOrVideo, 1, 0, 1, []), Settings(false, true, false),
                           Capabilities(Storage, true, NoActivityFound)) ==
            ResolveFailure(ErrorObject(20, NoCameraActivityMessage))
  {
    StorageHeld();
  }

  /** The plugin while request 0 waits for the still camera, with the video
      placeholder its launch inserted and the image count it saved. */
  function PhotoPending(): Plugin {
    Plugin(Registry(map[0 := Request(0, ImageOrVideo, 1, 0, 1, [])], 1, []), Settings(false, true, false), 3,
           Some(Placeholder(MovieUri, 0)))
  }

  /** With the "image" flag set and every permission held, `captureImage`
      starts the still camera. */
  lemma PhotoCameraStarts()
    ensures Execute(Initialize(false), "captureImage", Flags("true", "false"), One, NoProbe,
                    Phone(Storage, Launched, Photo, false)) == (PhotoPending(), Started(0, Launch(0, ImageCapture)))
  {
    var dev := Phone(Storage, Launched, Photo, false);
    var p0 := Initialize(false);
    FlagsRead(p0, "captureImage", "true", "false", One, dev);
    ParseBooleanExamples();
    var p0' := p0.(settings := Settings(false, true, false));
    CameraLaunches(true, false);
    StartOutcome(p0', ImageOrVideo, One, dev);
  }

  /** With storage held and no CAMERA in the manifest, request 0's camera
      step launches the activity its flags choose. */
  lemma CameraLaunches(image: bool, video: bool)
    ensures ExecuteRequest(Request(0, ImageOrVideo, 1, 0, 1, []), Settings(false, image, video),
                           Capabilities(Storage, true, Launched)) ==
            Launch(0, ChooseIntent(image, video))
  {
    StorageHeld();
  }

  /** One photo: the caller receives exactly that photo, and with no
      duplicate row in the store nothing is deleted. */
  lemma SinglePhotoSucceeds()
    ensures var (p', e, c) := ActivityResult(PhotoPending(), 0, ResultOk, Phone(Storage, Launched, Photo, false));
            && e == ResolveSuccess([Photo])
            && p'.registry.delivered == [Delivery(0, Succeeded([Photo]))]
            && c == KeepStore
  {
    var p := PhotoPending();
    assert ValidPlugin(p);
    assert [] + [Photo] == [Photo];
    ActivityResultOutcome(p, 0, ResultOk, Phone(Storage, Launched, Photo, false));
  }

  /** A camera app that also stores its own copy: the image store grew by
      two rows since the launch, so the row just below the last one is
      deleted. */
  lemma DuplicatePhotoDeletesRow()
    ensures var dev := Device(Capabilities(Storage, true, Launched), 5, 9, MovieUri, Produced(Photo, false), "");
            var (p', e, c) := ActivityResult(PhotoPending(), 0, ResultOk, dev);
            e == ResolveSuccess([Photo]) && c == DeleteImage(8)
  {
    var p := PhotoPending();
    assert ValidPlugin(p);
    assert [] + [Photo] == [Photo];
    ActivityResultOutcome(p, 0, ResultOk, Device(Capabilities(Storage, true, Launched), 5, 9, MovieUri,
                                                 Produced(Photo, false), ""));
  }

  /** Cancelling the camera before any photo: the caller receives
      NoMediaFiles with "Canceled.", and the request's own video placeholder
      is deleted. */
  lemma CancelBeforePhotoFails()
    ensures var (p', e, c) := ActivityResult(PhotoPending(), 0, ResultCanceled, Phone(Storage, Launched, Photo, false));
            && e == ResolveFailure(ErrorObject(3, CanceledMessage))
            && p'.registry.delivered == [Delivery(0, Failed(ErrorObject(3, CanceledMessage)))]
            && p'.registry.pending == map[]
            && c == DeleteVideoFile(MovieUri)
  {
    var p := PhotoPending();
    assert ValidPlugin(p);
    ActivityResultOutcome(p, 0, ResultCanceled, Phone(Storage, Launched, Photo, false));
    assert p.registry.pending - {0} == map[];
  }

  /** The plugin while one audio request for three clips, code 0, holds
      `clips`. */
  function Recording(clips: seq<MediaFile>): Plugin {
    Plugin(Registry(map[0 := Request(0, Audio, 3, 0, 1, clips)], 1, []), Settings(false, false, false), 0, None)
  }

  lemma RecordingStarts(c: MediaFile)
    ensures Execute(Initialize(false), "captureAudio", Flags("false", "false"), RequestOptions(3, 0, 1), NoProbe,
                    Phone(Storage, Launched, c, false)) == (Recording([]), Started(0, Launch(0, RecordSound)))
  {
    var opts := RequestOptions(3, 0, 1);
    var d := Phone(Storage, Launched, c, false);
    var p0 := Initialize(false);
    var req := Request(0, Audio, 3, 0, 1, []);
    FlagsRead(p0, "captureAudio", "false", "false", opts, d);
    ParseBooleanExamples();
    StorageHeld();
    assert ExecuteRequest(req, p0.settings, d.caps) == Launch(0, RecordSound);
    StartOutcome(p0, Audio, opts, d);
  }

  lemma RecordingContinues(clips: seq<MediaFile>, c: MediaFile)
    requires |clips| < 2
    ensures ActivityResult(Recording(clips), 0, ResultOk, Phone(Storage, Launched, c, false)) ==
            (Recording(clips + [c]), Launch(0, RecordSound), KeepStore)
  {
    var p := Recording(clips);
    var d := Phone(Storage, Launched, c, false);
    var req := Request(0, Audio, 3, 0, 1, clips);
    var next := Request(0, Audio, 3, 0, 1, clips + [c]);
    assert ValidPlugin(p);
    AudioClipOutcome(p, 0, d);
    StorageHeld();
    assert CaptureAudio(next, d.caps) == Launch(0, RecordSound);
    assert map[0 := req][0 := next] == map[0 := next];
  }

  lemma RecordingEnds(clips: seq<MediaFile>, c: MediaFile)
    requires |clips| == 2
    ensures var (p', e, _) := ActivityResult(Recording(clips), 0, ResultOk, Phone(Storage, Launched, c, false));
            && e == ResolveSuccess(clips + [c])
            && p'.registry == Registry(map[], 1, [Delivery(0, Succeeded(clips + [c]))])
  {
    var p := Recording(clips);
    assert ValidPlugin(p);
    AudioClipOutcome(p, 0, Phone(Storage, Launched, c, false));
    assert p.registry.pending - {0} == map[];
  }

  /** The plugin while request 0, for audio, waits for the storage prompt. */
  function AudioPrompted(): Plugin {
    Plugin(Registry(map[0 := Request(0, Audio, 1, 0, 1, [])], 1, []), Settings(false, false, false), 0, None)
  }

  /** With no permission held, `captureAudio` asks for both storage
      permissions, in order, and starts no activity. */
  lemma StoragePrompted()
    ensures Execute(Initialize(false), "captureAudio", Flags("false", "false"), One, NoProbe,
                    Phone({}, Launched, Clip, false)) ==
            (AudioPrompted(), Started(0, RequestPermissions(0, [ReadExternalStorage, WriteExternalStorage])))
  {
    var dev := Phone({}, Launched, Clip, false);
    var p0 := Initialize(false);
    FlagsRead(p0, "captureAudio", "false", "false", One, dev);
    ParseBooleanExamples();
    NothingHeldPrompts(p0.settings);
    StartOutcome(p0, Audio, One, dev);
  }

  lemma NothingHeldPrompts(settings: Settings)
    ensures ExecuteRequest(Request(0, Audio, 1, 0, 1, []), settings, Capabilities({}, true, Launched)) ==
            RequestPermissions(0, [ReadExternalStorage, WriteExternalStorage])
  {
    assert MissingPermissions(StoragePermissions, {}) == [ReadExternalStorage, WriteExternalStorage];
  }

  /** A storage permission denied at the prompt: the caller receives
      PermissionDenied without any activity being started, and a repeated
      outcome for the same code is ignored. */
  lemma DeniedStorageNeverLaunches()
    ensures var dev := Phone({}, Launched, Clip, false);
            var (p', e) := PermissionResult(AudioPrompted(), 0, [0, PermissionDeniedResult], dev);
            && e == ResolveFailure(ErrorObject(4, PermissionDeniedMessage))
            && p'.registry.delivered == [Delivery(0, Failed(ErrorObject(4, PermissionDeniedMessage)))]
            && PermissionResult(p', 0, [0, 0], dev) == (p', NoOp)
  {
    var dev := Phone({}, Launched, Clip, false);
    var p := AudioPrompted();
    assert ValidPlugin(p);
    assert [0, PermissionDeniedResult][1] == PermissionDeniedResult;
    PermissionResultOutcome(p, 0, [0, PermissionDeniedResult], dev);
    var p' := PermissionResult(p, 0, [0, PermissionDeniedResult], dev).0;
    assert WasDelivered(p'.registry, 0) by {
      assert p'.registry.delivered[0].requestCode == 0;
    }
    NoSecondResolution(p', 0, [0, 0], dev);
  }

  /** The plugin while request 0 waits for the video camera, with the
      placeholder its launch inserted. */
  function VideoPending(): Plugin {
    Plugin(Registry(map[0 := Request(0, ImageOrVideo, 1, 0, 1, [])], 1, []), Settings(false, false, true), 3,
           Some(Placeholder(MovieUri, 0)))
  }

  /** The plugin after request 0 delivered a video recorded into that
      placeholder. */
  function VideoDelivered(): Plugin {
    Plugin(Registry(map[], 1, [Delivery(0, Succeeded([Movie]))]), Settings(false, false, true), 3,
           Some(Placeholder(MovieUri, 0)))
  }

  /** The plugin once request 1, for audio, has started after that delivery:
      the placeholder of request 0 is still recorded. */
  function AudioAfterVideo(): Plugin {
    Plugin(Registry(map[1 := Request(1, Audio, 1, 0, 1, [])], 2, [Delivery(0, Succeeded([Movie]))]),
           Settings(false, false, false), 3, Some(Placeholder(MovieUri, 0)))
  }

  lemma VideoCameraStarts()
    ensures Execute(Initialize(false), "captureImage", Flags("false", "true"), One, NoProbe,
                    Phone(Storage, Launched, Movie, true)) == (VideoPending(), Started(0, Launch(0, VideoCapture)))
  {
    var dev := Phone(Storage, Launched, Movie, true);
    var p0 := Initialize(false);
    FlagsRead(p0, "captureImage", "false", "true", One, dev);
    ParseBooleanExamples();
    var p0' := p0.(settings := Settings(false, false, true));
    CameraLaunches(false, true);
    StartOutcome(p0', ImageOrVideo, One, dev);
  }

  lemma VideoIsDelivered()
    ensures ActivityResult(VideoPending(), 0, ResultOk, Phone(Storage, Launched, Movie, true)) ==
            (VideoDelivered(), ResolveSuccess([Movie]), KeepStore)
  {
    var p1 := VideoPending();
    assert ValidPlugin(p1);
    var req := Request(0, ImageOrVideo, 1, 0, 1, []);
    VideoResultAlwaysSucceeds(req, Some(MovieUri), "", Movie);
    assert [] + [Movie] == [Movie];
    ActivityResultOutcome(p1, 0, ResultOk, Phone(Storage, Launched, Movie, true));
    assert p1.registry.pending - {0} == map[];
  }

  lemma AudioStartsAfterVideo()
    ensures Execute(VideoDelivered(), "captureAudio", Flags("false", "false"), One, NoProbe,
                    Phone(Storage, Launched, Movie, true)) == (AudioAfterVideo(), Started(1, Launch(1, RecordSound)))
  {
    var dev := Phone(Storage, Launched, Movie, true);
    var p2 := VideoDelivered();
    assert ValidPlugin(p2) by {
      assert p2.registry.delivered[0].requestCode == 0;
    }
    FlagsRead(p2, "captureAudio", "false", "false", One, dev);
    ParseBooleanExamples();
    var p2' := p2.(settings := Settings(false, false, false));
    var req := Request(1, Audio, 1, 0, 1, []);
    StorageHeld();
    assert ExecuteRequest(req, p2'.settings, dev.caps) == Launch(1, RecordSound);
    StartOutcome(p2', Audio, One, dev);
    assert map[][1 := req] == map[1 := req];
  }

  /** The as-written cleanup deletes a delivered video. After the run of
      `VideoCameraStarts`, `VideoIsDelivered` and `AudioStartsAfterVideo`,
      request 0's video has reached its caller and request 1, for audio, is
      pending; when request 1 is cancelled, the as-written cleanup targets
      request 0's video, while the corrected cleanup leaves the store alone. */
  lemma CancelledAudioDeletesDeliveredVideo()
    ensures AudioAfterVideo().registry.delivered == [Delivery(0, Succeeded([Movie]))]
    ensures CancelCleanupAsWritten(AudioAfterVideo().videoUri) == DeleteVideoFile(MovieUri)
    ensures ActivityResult(AudioAfterVideo(), 1, ResultCanceled, Phone(Storage, Launched, Movie, true)).2 == KeepStore
  {
    assert ValidPlugin(AudioAfterVideo()) by {
      assert AudioAfterVideo().registry.delivered[0].requestCode == 0;
    }
  }
}

=== FILE: wrappers.dfy ===
/** The wrappers used throughout the model: `Option` stands for a Java
    reference that may be null, `Result` for a call that may throw. */
module Wrappers {

  datatype Option<+T> = None | Some(value: T)

  datatype Result<+R, +E> = Success(value: R) | Failure(error: E)
}
